=== FILE: README.md ===
# HashMap: an open-addressing hash table, modelled in Dafny

`hash_map.h` defines a class template `HashMap<KeyType, ValueType, Hash>`.
It is an open-addressing hash table kept in two arrays of the same length,
`capacity_`:

- `used_` tags every slot: 0 is Empty, 1 is Occupied and 2 is a Tombstone
  (a slot whose pair was erased);
- `pairs_` holds the key/value pairs.

A key is looked up by a probe walk (`find_position`). The walk starts at
`hash % capacity_` and moves by a second, "shift" hash (`compute_shift_hash`),
modulo the capacity. It passes Tombstones and slots holding other keys. The
capacity is always a power of two and starts at 2:

- `insert` and `operator[]` double it when one more entry would take the
  load above one half;
- `erase` halves it when at least four entries fill less than a quarter.

Both resizes rebuild the table. Iteration visits the Occupied slots in index
order.

The project has four modules:

- `Probing` (`probing.dfy`): the shift hash, with the 64-bit wrap-around of
  `size_t` written out, and the probe walk. It proves that the shift hash of
  an even capacity is odd, so on a power-of-two table the walk visits every
  slot exactly once per lap and then repeats.
- `Slots` (`slots.dfy`): the table as values: a sequence of tags and a
  sequence of pairs. It defines:
  - `TableInv`, the invariant the class keeps between operations: the size
    counts the Occupied slots, the load is at most one half, the stored keys
    are distinct, and every stored key is reached by its own walk before any
    Empty slot;
  - `MapOf`, the map the Occupied slots hold;
  - `SourceProbe`, the walk of `find_position` exactly as written, which has
    no answer when the loop never ends;
  - `Probe`, the same walk bounded to one lap.

  `create_pair`, `delete_pair` and the re-insertion of `rebuild` are each
  proved to keep the invariant and to change the map as intended. The copy
  of copy-assignment is proved to give the other table's map, and it is
  proved to keep the invariant when the other table has no Tombstones. With
  Tombstones it can lose a key (see "## Findings").
- `HashMaps` (`hash_map.dfy`): the class `HashMap` has the fields `used`,
  `pairs`, `size` and `capacity`, which its methods update in place. It
  also has the constant fields `hash` (the hash object) and `blank` (the
  default-constructed pair `{KeyType{}, ValueType{}}`). In the source the
  default pair belongs to the types, so every table shares it; the two
  copy-assignments require the tables' `blank` to agree.
  - The ghost predicate `Valid` is `TableInv` of the arrays.
  - The ghost function `Model` is their map.
  - Every public operation is specified against `Model`. Every operation
    that changes the table keeps `Valid`, except copy-assignment. As written
    (`AssignFrom`), it is proved to keep `Valid` when the other table has no
    Tombstones and the hash objects agree; with Tombstones it can lose a
    key. As intended (`Assign`), it keeps
    `Valid` whenever the hash objects agree, since the hash object is not
    copied.
  - The class `Iterator` models the iterator as a slot position.
- `Findings` (`findings.dfy`): two concrete tables that exhibit the two
  defects listed under "## Findings".

In `find_position`, the walk stops at an Empty slot or at an Occupied slot
that holds the key. At the stop, the source returns the slot itself when it
is Occupied or when its stored key equals the key. An Empty slot always
holds the default pair `{KeyType{}, ValueType{}}`: Empty slots come only from
the fresh arrays of `initial_memory` and `rebuild`, and are never written. So
for the default key `KeyType{}` the Empty slot wins over a Tombstone passed
earlier. `SourceProbe` and `FindPosition`
keep this behaviour. The entry it places there is still reached by its walk.

Keys and values are generic. The hash object is a function from keys to
64-bit words (`Word`).

## Model

| member | source | states |
|---|---|---|
| Probing.ShiftHash | hash_map.h:281-287 | the shift hash is a slot offset below the capacity |
| Probing.ShiftHashIsOdd | hash_map.h:281-287 | for an even capacity the shift hash is odd, whatever the primary hash, so it is never 0 and is coprime to a power-of-two capacity |
| Probing.PathAt | hash_map.h:290-297 | the walk for a primary hash is always at a slot index below the capacity |
| Probing.ProbeAtClosedForm | hash_map.h:291-297 | after `d` steps the walk is at `start + d * step` reduced modulo the capacity |
| Probing.PathAtPeriodic | hash_map.h:291-297 | the walk repeats with period `capacity`: step `d` visits the same slot as step `d % capacity` |
| Probing.PathAtDistinct | hash_map.h:291-297 | on a power-of-two table the first `capacity` steps visit pairwise different slots |
| Probing.PathSlotsCount | hash_map.h:291-297 | the first `m` steps of a lap visit exactly `m` slots |
| Probing.ProbeCoversTable | hash_map.h:291-297 | every slot is visited within one lap |
| Slots.FirstStop | hash_map.h:293-298 | the first step of a lap at which the loop condition of `find_position` is false, with the loop continuing at every earlier step; none if there is no such step |
| Slots.FirstTombstone | hash_map.h:292-296 | the first Tombstone the walk passes (`first_zero`), with no Tombstone before it |
| Slots.SourceProbe | hash_map.h:289-306 | `find_position` exactly as written: no answer exactly when no step of the walk stops the loop, and then the loop never ends; otherwise the answer of lines 299-305, a slot of the table, which holds the key whenever it is Occupied |
| Slots.Probe | hash_map.h:289-306 | the answer of the lap-bounded walk is a slot of the table |
| Slots.WalkAnswer | hash_map.h:293-305 | when the loop leaves early, its exit test picks the source's answer: the stop slot if it is Occupied or its stored key equals the key, else `first_zero` if a Tombstone was passed, else the stop slot; after a full lap, the answer is the first Tombstone and the source never answers |
| Slots.LapHasTombstone | hash_map.h:293-298 | a lap in which the walk never stops passes a Tombstone, because it visits every slot and at least one slot is not Occupied |
| Slots.SourceProbeNeverReturns | hash_map.h:293-298 | if the source loop does not stop within one lap, it never stops |
| Slots.NoEmptySlotNeverStops | hash_map.h:293-298 | a table with no Empty slot and no slot holding the key sends the source loop round forever |
| Slots.ProbeFindsKey | hash_map.h:289-306 | on a valid table the walk for a stored key answers that key's slot, and so does the source |
| Slots.ProbeOfAbsentKey | hash_map.h:289-306 | for an absent key the walk answers a slot that is not Occupied, reached without passing an Empty slot |
| Slots.ProbeAnswers | hash_map.h:289-306 | the answer slot is Occupied if and only if the key is stored, and then it holds the key |
| Slots.ProbeLookup | hash_map.h:289-306 | the answer slot is Occupied if and only if the key is in the map, and then it holds the key with its mapped value |
| Slots.EmptyTableInv | hash_map.h:264-272 | an all-Empty power-of-two table keeps the invariant with size 0 and holds the empty map |
| Slots.CreateKeepsInv | hash_map.h:308-313 | `create_pair` of an absent key at the walk's answer keeps the invariant, with size one larger, when the load leaves room |
| Slots.CreateKeepsDistinct | hash_map.h:308-313 | storing a key that no Occupied slot holds keeps the keys distinct |
| Slots.CreateKeepsReachable | hash_map.h:308-313 | storing a key at a slot its walk reaches without passing an Empty slot keeps every stored key reachable |
| Slots.DeleteKeepsInv | hash_map.h:315-319 | `delete_pair` on an Occupied slot keeps the invariant, with size one smaller |
| Slots.DeleteKeepsDistinct | hash_map.h:315-319 | turning a slot into a Tombstone keeps the keys distinct |
| Slots.DeleteKeepsReachable | hash_map.h:315-319 | turning a slot into a Tombstone keeps every other key reachable, because a Tombstone does not stop the walk |
| Slots.OccupiedSetAdd | hash_map.h:311-312 | marking a non-Occupied slot Occupied adds exactly that slot to the Occupied set |
| Slots.OccupiedSetRemove | hash_map.h:317-318 | marking an Occupied slot otherwise removes exactly that slot |
| Slots.MapOfKeys | hash_map.h:259-263 | with distinct keys, the map holds exactly the keys of the Occupied slots, each with its slot's value |
| Slots.MapOfSize | hash_map.h:112-114 | on a valid table `size_` is the number of keys in the map |
| Slots.CreateMap | hash_map.h:308-313 | storing an absent key on a non-Occupied slot adds exactly that binding to the map |
| Slots.DeleteMap | hash_map.h:315-319 | making an Occupied slot a Tombstone removes exactly its key from the map |
| Slots.InsertAt | hash_map.h:77-81 | storing an absent key at the walk's answer adds the binding and keeps the invariant |
| Slots.EraseAt | hash_map.h:85-89 | deleting a present key at the walk's answer removes it and keeps the invariant |
| Slots.CountOccupiedAll | hash_map.h:344-351 | counting the Occupied slots one by one, as `rebuild` and copy-assignment do, gives the size of the Occupied set |
| Slots.RoomLeft | hash_map.h:46-50 | while the entries of a table are placed one by one in slot order, at least one is still to come at each Occupied slot, so the count stays below the table's size |
| Slots.HalfIsPow2 | hash_map.h:331 | halving a power-of-two capacity of at least 4 gives a power of two of at least 2 |
| Slots.DoubleIsPow2 | hash_map.h:323 | doubling a power-of-two capacity gives a power of two |
| Slots.ReinsertSkip | hash_map.h:347-348 | a slot of the old table that is not Occupied leaves the re-inserted table unchanged |
| Slots.RebuildStep | hash_map.h:347-352 | re-inserting old slot `i` at its walk's answer in the new table lands on an Empty slot, keeps the invariant and no Tombstones, and extends the map to the old entries below `i + 1` |
| Slots.NextOccupied | hash_map.h:143-149 | the least Occupied index at or after a position, or the end, with no Occupied slot in between |
| Slots.VisitsOccupied | hash_map.h:143-149 | iterating with `++` from a position visits each Occupied slot at or after it exactly once, in increasing order |
| Slots.CopyStep | hash_map.h:46-50 | one step of the copy loop copies slot `i` exactly when the other's slot `i` is Occupied |
| Slots.CopiedAll | hash_map.h:39-53 | after the copy loop the tags are the other's with every Tombstone made Empty, the Occupied pairs are the other's, the size is the other's entry count and the map is the other's |
| Slots.CopyKeepsInv | hash_map.h:39-53 | when the other table has no Tombstones and the same hash, the copy keeps the invariant |
| HashMaps.InsertedFirstWins | hash_map.h:13-23 | the map built by inserting pairs in order holds exactly their keys, each bound to the value of its first occurrence |
| HashMaps.HashMap.constructor | hash_map.h:6-8 | a valid empty table of capacity 2 with the given hash, every slot Empty and holding the default pair |
| HashMaps.HashMap.FromPairs | hash_map.h:10-24 | a valid table whose map is that of inserting the given pairs in order |
| HashMaps.HashMap.CopyFrom | hash_map.h:26-31 | both arrays copied verbatim, Tombstones included, with the same size, capacity, hash and map; the copy is valid |
| HashMaps.HashMap.InitialMemory | hash_map.h:264-272 | fresh arrays of the new capacity, every slot Empty and holding the default pair, size 0, empty map, valid |
| HashMaps.HashMap.FindPosition | hash_map.h:289-306 | the loop returns the answer of the lap-bounded walk, which is the source's answer whenever the source answers |
| HashMaps.HashMap.CreatePair | hash_map.h:308-313 | slot `index` becomes Occupied with the pair, size one larger, nothing else changes |
| HashMaps.HashMap.DeletePair | hash_map.h:315-319 | slot `index` becomes a Tombstone holding the default pair, size one smaller, nothing else changes |
| HashMaps.HashMap.Rebuild | hash_map.h:335-355 | fresh arrays of the new capacity, the same size and map, the table valid and free of Tombstones |
| HashMaps.HashMap.ReinsertAll | hash_map.h:347-352 | the loop of `rebuild` re-inserts every Occupied entry of the old arrays, leaving the new table holding exactly the old map |
| HashMaps.HashMap.CheckOverload | hash_map.h:321-327 | grows, doubling the capacity, exactly when one more entry would exceed half the capacity; the map and size are unchanged and one more entry fits afterwards |
| HashMaps.HashMap.CheckInsufficientLoad | hash_map.h:329-333 | halves the capacity exactly when at least four entries fill less than a quarter of it, which happens only above capacity 16; the map and size are unchanged; a halving swaps in fresh arrays, otherwise the arrays are kept |
| HashMaps.HashMap.Insert | hash_map.h:75-82 | adds the binding when the key is absent and keeps the stored value when it is present; the capacity doubles exactly when the table was overloaded, even for a present key |
| HashMaps.HashMap.Erase | hash_map.h:84-91 | removes the key; an absent key changes nothing; a removal halves the capacity exactly when the remaining entries underload the table; the arrays are the old ones or fresh |
| HashMaps.HashMap.Index | hash_map.h:93-102 | returns the value bound to the key; an absent key is first bound to the default value, growing the table only then; the arrays are the old ones or fresh |
| HashMaps.HashMap.At | hash_map.h:104-110 | succeeds if and only if the key is in the map, with its value; otherwise `out_of_range` |
| HashMaps.HashMap.Size | hash_map.h:112-114 | the number of keys in the map |
| HashMaps.HashMap.IsEmpty | hash_map.h:116-118 | true exactly when the map is empty |
| HashMaps.HashMap.Clear | hash_map.h:120-123 | from any state, even an invalid one, a valid empty table of capacity 2 on fresh arrays, every slot Empty and holding the default pair |
| HashMaps.HashMap.Begin | hash_map.h:215-221 | an iterator at the least Occupied slot, or at the end |
| HashMaps.HashMap.End | hash_map.h:222-224 | an iterator at position `capacity` |
| HashMaps.HashMap.Find | hash_map.h:245-251 | an iterator before the end if and only if the key is in the map, and then at the Occupied slot holding the key with its value |
| HashMaps.HashMap.AssignFrom | hash_map.h:39-53 | copy-assignment as written, between tables that share the default pair: the other's capacity, size and map, with the other's Tombstones made Empty; valid when the other had no Tombstones and the hash objects agree; the arrays are fresh unless it is a self-assignment |
| HashMaps.HashMap.CopyOccupied | hash_map.h:46-51 | the copy loop places each Occupied entry of the other table at the same index; `check_overload` never fires |
| HashMaps.HashMap.Assign | hash_map.h:39-53 | copy-assignment as intended, between tables that share the default pair: both arrays copied verbatim, the same map, valid whenever the hash objects agree |
| HashMaps.Iterator.constructor | hash_map.h:132-133 | an iterator over the given arrays at the given position |
| HashMaps.Iterator.Increment | hash_map.h:143-149 | `++` moves to the least Occupied slot strictly after the position, or to the end |
| Findings.FindPositionHangs | hash_map.h:289-306 | a valid table of capacity 8 with four Tombstones and four entries, on which the walk of `find_position` as written never stops for the absent key 8, while the lap-bounded walk answers slot 0 |
| Findings.AssignLosesKey | hash_map.h:39-53 | a valid table holding key 4 past a Tombstone; its copy made by copy-assignment still holds 4, but the walk for 4 stops at the Empty slot 0, so the copy no longer finds 4 |

## Left out

- The move constructor (hash_map.h:33-37), the move assignment (hash_map.h:55-66), the destructor and `clear_memory` are not modelled. They transfer or free array ownership and leave the moved-from object with null arrays, which has no counterpart in a garbage-collected model.
- `hash_function` (hash_map.h:125-127) is not modelled as an operation. It returns the hash object, which is the constant field `hash`.
- `const_iterator` and the `const` overloads of `begin`, `end` and `find` are not modelled separately. Their code is the same as that of `iterator` and the non-`const` members, which are modelled.
- Postfix `++` is not modelled separately. It moves like prefix `++`, which is modelled, and returns the old position.
- Iterator `==`/`!=`, `operator*` and `operator->` are left out. They compare positions or read the pair at the position.
- Exceptions other than `out_of_range` from `at` are left out, and so is exception safety. Allocation failure and throwing hash functions or copies are not modelled.
- HashMaps.HashMap.Index: returns the value rather than a reference into `pairs_`. A write through that reference is not modelled.
- HashMaps.HashMap.Begin and HashMaps.Iterator.Increment: these test the end bound before reading a tag. The source reads `used_[capacity_]` first, one past the array. The position reached is the same, and the out-of-bounds read is not modelled.
- Iterators are not invalidated in the model. They keep the arrays they were made from, even after a rebuild replaces the table's arrays.
- `size_t` overflow of `MAX_PERCENT * (size_ + 1)` and `MAX_PERCENT * size_` in the load checks is not modelled. These products are taken over unbounded integers. The wrap-around of the shift hash is modelled.
- HashMaps.HashMap.FindPosition: bounds the walk to one lap and answers the first Tombstone when the lap ends. This is the corrected behaviour, not the source's endless loop (see "## Findings"). `Slots.SourceProbe` models the loop as written.
- HashMaps.HashMap.AssignFrom: promises `Valid()` only when the other table has no Tombstones and the hash objects are equal. Without those conditions the copy can lose keys (see "## Findings"). The source's copy-assignment does not copy `hash_`.
- The hash object is any function from keys to 64-bit words. Key equality is Dafny's `==`.

## Findings

| source | as written | input that shows it | evidently intended | confidence | as-written member | corrected member |
|---|---|---|---|---|---|---|
| hash_map.h:293-298 | the probe loop of `find_position` stops only at an Empty slot or at the key's own slot, with no bound on the number of steps | with the identity hash: insert 0, 1, 2, 3 (capacity grows 2 → 4 → 8); then for i = 0..3 erase i and insert i + 4. This gives tags T T T T O O O O. Then `find(8)`, `at(8)`, `erase(8)` or `m[8]` walks every slot forever. After one more `erase(4)` (size 3, no shrink), `insert(8)` passes the growth check and walks forever too | after one lap, answer the first Tombstone passed: a free slot on the key's own walk, which exists because the load is at most one half | not executed | Findings.FindPositionHangs | HashMaps.HashMap.FindPosition |
| hash_map.h:39-53 | copy-assignment rebuilds the tag array from the other's Occupied slots only, so the other's Tombstones become Empty in the copy, at the same indices | with the identity hash: insert 0, then insert 4 (capacity grows to 4; the walk for 4 passes slot 0, which holds 0, and lands in slot 3), then erase 0. Assign the table to another map `b`. `b.find(4)` stops at the Empty slot 0 and returns `end()`, though `b.size()` is 1 | the copy finds every key the original finds, as the copy constructor's verbatim copy does | not executed | HashMaps.HashMap.AssignFrom, Findings.AssignLosesKey | HashMaps.HashMap.Assign |

=== FILE: findings.dfy ===
/**
 Two concrete tables that show where `hash_map.h` departs from what it
 evidently intends. Keys and values are naturals, hashed to themselves as
 `std::hash<size_t>` does, and a default-constructed pair is `(0, 0)`.
 */
module Findings {
  import opened Probing
  import opened Slots

  /** The identity hash of `std::hash<size_t>`. */
  function IdHash(k: nat): (h: Word)
    ensures k < WORD ==> h == k
  {
    k % WORD
  }

  // ---------------------------------------------------------------------
  // find_position never returns once a lap holds no Empty slot

  /** Capacity 8 after inserting 0, 1, 2, 3 (growing 2 -> 4 -> 8) and then,
      for i = 0 .. 3, erasing i and inserting i + 4: four Tombstones and four
      entries, so no slot is Empty. */
  function HangTags(): seq<Slot> {
    [Tombstone, Tombstone, Tombstone, Tombstone, Occupied, Occupied, Occupied, Occupied]
  }

  function HangPairs(): seq<(nat, nat)> {
    [(0, 0), (0, 0), (0, 0), (0, 0), (4, 4), (5, 5), (6, 6), (7, 7)]
  }

  /** The table keeps every invariant of the class. */
  lemma HangTableInv()
    ensures TableInv(HangTags(), HangPairs(), 4, IdHash)
  {
    assert IsPow2(8);
    HangOccupied();
    HangDistinct();
    HangReachable();
  }

  lemma HangOccupied()
    ensures OccupiedSet(HangTags()) == {4, 5, 6, 7}
  {
    var u := HangTags();
    forall i: nat | i in OccupiedSet(u) ensures i in {4, 5, 6, 7} {
      assert i < 8 && u[i] == Occupied;
    }
    assert u[4] == Occupied && u[5] == Occupied && u[6] == Occupied && u[7] == Occupied;
  }

  lemma HangDistinct()
    ensures DistinctKeys(HangTags(), HangPairs())
  {
  }

  /** Every entry sits where its walk starts. */
  lemma HangReachable()
    ensures Reachable(HangTags(), HangPairs(), IdHash)
  {
    var u, ps := HangTags(), HangPairs();
    forall j | 0 <= j < |u| && u[j] == Occupied ensures ReachableAt(u, ps, IdHash, j) {
      assert 4 <= j < 8 && ps[j].0 == j;
      assert PathAt(IdHash(ps[j].0), |u|, 0) == j;
      assert CleanPath(u, IdHash(ps[j].0), 0);
    }
  }

  /** Yet the walk of `find_position` for the absent key 8 never stops; the
      lap-bounded walk answers the first Tombstone, slot 0. */
  lemma FindPositionHangs()
    ensures TableInv(HangTags(), HangPairs(), 4, IdHash)
    ensures 8 !in MapOf(HangTags(), HangPairs())
    ensures SourceProbe(HangTags(), HangPairs(), 8, IdHash(8)).None?
    ensures Probe(HangTags(), HangPairs(), 8, IdHash(8)) == 0
  {
    var u, ps := HangTags(), HangPairs();
    HangTableInv();
    HangAbsent();
    MapOfKeys(u, ps);
    HangNoEmpty();
    NoEmptySlotNeverStops(u, ps, 8, 8);
    HangFirstTombstone();
  }

  /** Every slot is a Tombstone or Occupied. */
  lemma HangNoEmpty()
    ensures forall i :: 0 <= i < |HangTags()| ==> HangTags()[i] != Empty
  {
    var u := HangTags();
    forall i | 0 <= i < |u| ensures u[i] != Empty {
      assert i < 4 || 4 <= i < 8;
    }
  }

  /** No Occupied slot holds 8. */
  lemma HangAbsent()
    ensures !HasKey(HangTags(), HangPairs(), 8)
  {
    var u, ps := HangTags(), HangPairs();
    forall i | 0 <= i < 8 && u[i] == Occupied ensures ps[i].0 != 8 {
      assert 4 <= i;
    }
  }

  /** The walk for 8 starts on the Tombstone in slot 0. */
  lemma HangFirstTombstone()
    ensures FirstTombstone(HangTags(), 8, 8) == Some(0)
  {
    assert PathAt(8, 8, 0) == 0;
    assert FirstTombstone(HangTags(), 8, 1) == Some(0);
    FirstTombstoneFixed(HangTags(), 8, 1, 8);
  }

  /** Once the walk has passed a Tombstone, later steps do not change the first one. */
  lemma {:induction false} FirstTombstoneFixed(u: seq<Slot>, h: Word, d: nat, d': nat)
    requires 0 < |u| && d <= d' && FirstTombstone(u, h, d).Some?
    ensures FirstTombstone(u, h, d') == FirstTombstone(u, h, d)
    decreases d' - d
  {
    if d < d' {
      FirstTombstoneFixed(u, h, d, d' - 1);
    }
  }

  // ---------------------------------------------------------------------
  // Copy-assignment drops the Tombstones a stored key's walk passes

  /** Capacity 4 after inserting 0, inserting 4 (the table grows to 4 and
      the walk for 4 passes slot 0, held by 0, to land in slot 3) and
      erasing 0. */
  function LossTags(): seq<Slot> {
    [Tombstone, Empty, Empty, Occupied]
  }

  function LossPairs(): seq<(nat, nat)> {
    [(0, 0), (0, 0), (0, 0), (4, 4)]
  }

  /** The step for 4 in a table of 4 slots. */
  lemma ShiftHashOfFour()
    ensures ShiftHash(4, 4) == 3
  {
    ShiftHashStages(4, 4);
    StagesOfFour();
  }

  /** Each multiply-add stage of the step for 4 in a table of 4 slots gives 3. */
  lemma StagesOfFour()
    ensures Stage(0, 4, 239, 4) == 3 && Stage(3, 4, 179, 4) == 3 && Stage(3, 4, 191, 4) == 3
  {
    assert Reduce(239, 4) == 3;
    assert Reduce(191, 4) == 3;
    assert Reduce(203, 4) == 3;
  }

  /** The walk for 4 in a table of 4 slots visits 0, 3, 2, 1. */
  lemma PathOfFour()
    ensures PathAt(4, 4, 0) == 0 && PathAt(4, 4, 1) == 3 && PathAt(4, 4, 2) == 2 && PathAt(4, 4, 3) == 1
  {
    ShiftHashOfFour();
    assert ProbeAt(0, 3, 4, 1) == 3;
    assert ProbeAt(0, 3, 4, 2) == 2;
    assert ProbeAt(0, 3, 4, 3) == 1;
  }

  /** The table before the assignment keeps every invariant. */
  lemma LossTableInv()
    ensures TableInv(LossTags(), LossPairs(), 1, IdHash)
  {
    assert IsPow2(4);
    LossOccupied();
    LossReachable();
  }

  lemma LossOccupied()
    ensures OccupiedSet(LossTags()) == {3}
  {
    var u := LossTags();
    forall i: nat | i in OccupiedSet(u) ensures i == 3 {
      assert i < 4 && u[i] == Occupied;
    }
    assert u[3] == Occupied;
  }

  /** The entry 4 is reached in one step, past the Tombstone in slot 0. */
  lemma LossReachable()
    ensures Reachable(LossTags(), LossPairs(), IdHash)
  {
    var u, ps := LossTags(), LossPairs();
    PathOfFour();
    assert ps[3].0 == 4 && IdHash(4) == 4 && |u| == 4;
    assert u[PathAt(4, 4, 0)] == Tombstone;
    assert CleanPath(u, 4, 1);
    assert PathAt(IdHash(ps[3].0), |u|, 1) == 3;
    assert ReachableAt(u, ps, IdHash, 3);
    forall j | 0 <= j < |u| && u[j] == Occupied ensures ReachableAt(u, ps, IdHash, j) {
      assert j == 3;
    }
  }

  /** Both tag sequences hold the single entry 4. */
  lemma LossMaps()
    ensures MapOf(LossTags(), LossPairs()) == map[4 := 4]
    ensures MapOf(DropTombstones(LossTags()), LossPairs()) == map[4 := 4]
  {
    assert DropTombstones(LossTags()) == [Empty, Empty, Empty, Occupied];
  }

  /** After the assignment, the only step of the walk for 4 that reaches
      slot 3 comes after the Empty slot 0. */
  lemma CopyUnreachable()
    ensures !ReachableAt(DropTombstones(LossTags()), LossPairs(), IdHash, 3)
  {
    var c := DropTombstones(LossTags());
    assert c == [Empty, Empty, Empty, Occupied];
    PathOfFour();
    forall d | 0 <= d < 4 && PathAt(4, 4, d) == 3 ensures !CleanPath(c, 4, d) {
      assert d == 1;
      assert c[PathAt(4, 4, 0)] == Empty;
    }
  }

  /** The table keeps every invariant and holds 4. The copy that
      copy-assignment makes of it (`DropTombstones` of the tags, the same
      pairs in the Occupied slots and default pairs elsewhere) still holds 4,
      but the walk for 4 now stops at the Empty slot 0: `find(4)` answers
      `end()`, and the copy is no longer a table whose keys are all findable. */
  lemma AssignLosesKey()
    ensures TableInv(LossTags(), LossPairs(), 1, IdHash)
    ensures MapOf(LossTags(), LossPairs()) == map[4 := 4]
    ensures MapOf(DropTombstones(LossTags()), LossPairs()) == map[4 := 4]
    ensures SourceProbe(DropTombstones(LossTags()), LossPairs(), 4, IdHash(4)) == Some(0)
    ensures DropTombstones(LossTags())[0] == Empty
    ensures !Reachable(DropTombstones(LossTags()), LossPairs(), IdHash)
  {
    var c := DropTombstones(LossTags());
    assert c == [Empty, Empty, Empty, Occupied];
    LossTableInv();
    LossMaps();
    PathOfFour();
    assert FirstStop(c, LossPairs(), 4, 4, 0) == Some(0);
    CopyUnreachable();
  }
}

=== FILE: hash_map.dfy ===
/**
 The `HashMap` class of `hash_map.h`: an open-addressing table over two
 co-indexed arrays, `used` (the slot tags) and `pairs` (the stored key/value
 pairs), with the counters `size` and `capacity`. The ghost function `Model`
 gives the map the Occupied slots hold; every public operation is specified
 against it.
 */
module HashMaps {
  import opened Probing
  import opened Slots

  /** The initial capacity of every table. */
  const INITIAL_SIZE: nat := 2
  const MAX_PERCENT: nat := 100
  const TOP_LOAD_FACTOR: nat := 50
  const BOTTOM_LOAD_FACTOR: nat := 25

  /** What `at` signals for a missing key (`std::out_of_range`). */
  datatype Error = OutOfRange

  datatype Result<T> = Success(value: T) | Failure(error: Error)

  /** The table needs to grow before one more entry goes in. */
  predicate Overloaded(size: nat, capacity: nat) {
    MAX_PERCENT * (size + 1) > TOP_LOAD_FACTOR * capacity
  }

  /** The table is big enough to be halved. */
  predicate Underloaded(size: nat, capacity: nat) {
    size >= 2 * INITIAL_SIZE && MAX_PERCENT * size < BOTTOM_LOAD_FACTOR * capacity
  }

  /** The map that `insert` calls for `items`, in order, build from an empty
      table: a key already present keeps its value. */
  ghost function Inserted<K, V>(items: seq<(K, V)>): map<K, V> {
    if items == [] then map[]
    else
      var m := Inserted(items[..|items| - 1]);
      var last := items[|items| - 1];
      if last.0 in m then m else m[last.0 := last.1]
  }

  /** The keys are those of the items, and each key is bound to the value of
      its first occurrence. */
  lemma {:induction false} InsertedFirstWins<K, V>(items: seq<(K, V)>)
    ensures forall k :: k in Inserted(items) <==> exists i :: 0 <= i < |items| && items[i].0 == k
    ensures forall i :: 0 <= i < |items| && (forall j :: 0 <= j < i ==> items[j].0 != items[i].0) ==>
                          Inserted(items)[items[i].0] == items[i].1
  {
    if items != [] {
      var n := |items| - 1;
      var pre := items[..n];
      InsertedFirstWins(pre);
      assert forall i :: 0 <= i < n ==> pre[i] == items[i];
      forall k ensures k in Inserted(items) <==> exists i :: 0 <= i < |items| && items[i].0 == k {
        if k != items[n].0 && k in Inserted(items) {
          var i :| 0 <= i < n && pre[i].0 == k;
          assert items[i].0 == k;
        }
      }
    }
  }

  class HashMap<K(==), V> {
    /** The hash function object. */
    const hash: K -> Word
    /** A default-constructed pair `{KeyType{}, ValueType{}}`. */
    const blank: (K, V)

    var used: array<Slot>
    var pairs: array<(K, V)>
    var size: nat
    var capacity: nat

    /** The arrays form a table of `size` entries. */
    ghost predicate Valid()
      reads this, used, pairs
    {
      && used.Length == capacity && pairs.Length == capacity
      && TableInv(used[..], pairs[..], size, hash)
    }

    /** The map the Occupied slots hold. */
    ghost function Model(): map<K, V>
      requires used.Length == pairs.Length
      reads this, used, pairs
    {
      MapOf(used[..], pairs[..])
    }

    /** `HashMap(Hash)`: an empty table of the initial capacity. The arrays
        start empty, as the null array fields of the source do. */
    constructor(hash: K -> Word, blank: (K, V))
      ensures Valid() && fresh(used) && fresh(pairs)
      ensures this.hash == hash && this.blank == blank
      ensures Model() == map[] && size == 0 && capacity == INITIAL_SIZE
      ensures forall i :: 0 <= i < capacity ==> used[i] == Empty && pairs[i] == blank
    {
      this.hash := hash;
      this.blank := blank;
      used := new Slot[0];
      pairs := new (K, V)[0];
      size, capacity := 0, 0;
      new;
      InitialMemory(INITIAL_SIZE);
    }

    /** The copy constructor: both arrays copied verbatim, Tombstones included. */
    constructor CopyFrom(other: HashMap<K, V>)
      requires other.Valid()
      ensures Valid() && fresh(used) && fresh(pairs)
      ensures hash == other.hash && blank == other.blank
      ensures capacity == other.capacity && size == other.size
      ensures used[..] == other.used[..] && pairs[..] == other.pairs[..]
      ensures Model() == other.Model()
    {
      hash := other.hash;
      blank := other.blank;
      size, capacity := other.size, other.capacity;
      var ps := other.pairs[..];
      pairs := new (K, V)[|ps|](i requires 0 <= i < |ps| => ps[i]);
      var u := other.used[..];
      used := new Slot[|u|](i requires 0 <= i < |u| => u[i]);
      new;
      assert used[..] == u && pairs[..] == ps;
    }

    /** The constructors from a range of pairs and from an initializer list:
        an empty table of the initial capacity, then `insert` of each pair in
        order. */
    constructor FromPairs(hash: K -> Word, blank: (K, V), items: seq<(K, V)>)
      ensures Valid() && fresh(used) && fresh(pairs)
      ensures this.hash == hash && this.blank == blank
      ensures Model() == Inserted(items)
    {
      this.hash := hash;
      this.blank := blank;
      used := new Slot[0];
      pairs := new (K, V)[0];
      size, capacity := 0, 0;
      new;
      InitialMemory(INITIAL_SIZE);
      for i := 0 to |items|
        invariant Valid() && fresh(used) && fresh(pairs)
        invariant Model() == Inserted(items[..i])
      {
        Insert(items[i].0, items[i].1);
        assert items[..i + 1][..i] == items[..i];
      }
      assert items[..|items|] == items;
    }

    /** `initial_memory`: fresh arrays of `newCapacity` slots, every slot Empty. */
    method InitialMemory(newCapacity: nat)
      requires 2 <= newCapacity && IsPow2(newCapacity)
      modifies this
      ensures Valid() && fresh(used) && fresh(pairs)
      ensures capacity == newCapacity && size == 0
      ensures forall i :: 0 <= i < capacity ==> used[i] == Empty && pairs[i] == blank
      ensures Model() == map[]
    {
      var slots := new Slot[newCapacity];
      for i := 0 to newCapacity
        modifies slots
        invariant forall j :: 0 <= j < i ==> slots[j] == Empty
      {
        slots[i] := Empty;
      }
      pairs := new (K, V)[newCapacity](_ => blank);
      size := 0;
      capacity := newCapacity;
      used := slots;
      EmptyTableInv(used[..], pairs[..], hash);
    }

    /** `find_position`, with the walk bounded to one lap of the table. The
        source's loop has no such bound and never ends when the lap passes no
        Empty slot and no slot holding `key`; this method then answers the
        first Tombstone of the lap. */
    method FindPosition(key: K) returns (index: nat)
      requires used.Length == capacity && pairs.Length == capacity
      requires HasFreeSlot(used[..], pairs[..])
      ensures index < capacity
      ensures index == Probe(used[..], pairs[..], key, hash(key))
      ensures SourceProbe(used[..], pairs[..], key, hash(key)).Some? ==>
                index == SourceProbe(used[..], pairs[..], key, hash(key)).value
    {
      ghost var u, ps := used[..], pairs[..];
      var h := hash(key);
      var step := ShiftHash(h, capacity);
      index := h % capacity;
      var firstZero := capacity;
      var d := 0;
      while d < capacity && (used[index] == Tombstone || (used[index] == Occupied && pairs[index].0 != key))
        invariant d <= capacity
        invariant index == PathAt(h, capacity, d)
        invariant FirstStop(u, ps, key, h, 0) == FirstStop(u, ps, key, h, d)
        invariant firstZero == match FirstTombstone(u, h, d)
                                 case None => capacity
                                 case Some(e) => PathAt(h, capacity, e)
        decreases capacity - d
      {
        if firstZero == capacity && used[index] == Tombstone {
          firstZero := index;
        }
        PathAtNext(h, capacity, d);
        index := (index + step) % capacity;
        d := d + 1;
      }
      WalkAnswer(u, ps, key, h, d, firstZero);
      if d == capacity {
        index := firstZero;
        return;
      }
      if used[index] == Occupied || pairs[index].0 == key {
        return;
      }
      if firstZero != capacity {
        index := firstZero;
      }
    }

    /** `create_pair`: slot `index` becomes Occupied with `(key, value)`. */
    method CreatePair(index: nat, key: K, value: V)
      requires used.Length == capacity && pairs.Length == capacity && index < capacity
      modifies this, used, pairs
      ensures used == old(used) && pairs == old(pairs)
      ensures used[..] == old(used[..])[index := Occupied]
      ensures pairs[..] == old(pairs[..])[index := (key, value)]
      ensures size == old(size) + 1 && capacity == old(capacity)
    {
      pairs[index] := (key, value);
      size := size + 1;
      used[index] := Occupied;
    }

    /** `delete_pair`: slot `index` becomes a Tombstone holding the default pair. */
    method DeletePair(index: nat)
      requires used.Length == capacity && pairs.Length == capacity && index < capacity && 0 < size
      modifies this, used, pairs
      ensures used == old(used) && pairs == old(pairs)
      ensures used[..] == old(used[..])[index := Tombstone]
      ensures pairs[..] == old(pairs[..])[index := blank]
      ensures size == old(size) - 1 && capacity == old(capacity)
    {
      pairs[index] := blank;
      size := size - 1;
      used[index] := Tombstone;
    }

    /** `rebuild`: every Occupied entry re-inserted into fresh arrays of
        `newCapacity` slots. */
    method Rebuild(newCapacity: nat)
      requires Valid()
      requires 2 <= newCapacity && IsPow2(newCapacity) && 2 * size <= newCapacity
      modifies this
      ensures Valid() && fresh(used) && fresh(pairs)
      ensures capacity == newCapacity && size == old(size)
      ensures Model() == old(Model())
      ensures NoTombstones(used[..])
    {
      ghost var ou, ops := used[..], pairs[..];
      // the fresh arrays, swapped in: the same state `initial_memory` builds
      var oldUsed, oldPairs := used, pairs;
      InitialMemory(newCapacity);
      ReinsertAll(oldUsed, oldPairs);
      CountOccupiedAll(ou);
    }

    /** The loop of `rebuild`: each Occupied entry of the old arrays, in slot
        order, stored at the slot `find_position` picks in the new ones. */
    method ReinsertAll(oldUsed: array<Slot>, oldPairs: array<(K, V)>)
      requires used.Length == capacity && pairs.Length == capacity
      requires oldUsed != used && oldPairs != pairs && oldUsed.Length == oldPairs.Length
      requires DistinctKeys(oldUsed[..], oldPairs[..]) && 2 * |OccupiedSet(oldUsed[..])| <= capacity
      requires Reinserted(oldUsed[..], oldPairs[..], used[..], pairs[..], size, hash, 0)
      modifies this, used, pairs
      ensures used == old(used) && pairs == old(pairs) && capacity == old(capacity)
      ensures Reinserted(oldUsed[..], oldPairs[..], used[..], pairs[..], size, hash, oldUsed.Length)
    {
      ghost var ou, ops := oldUsed[..], oldPairs[..];
      for i := 0 to oldUsed.Length
        invariant used == old(used) && pairs == old(pairs) && capacity == old(capacity)
        invariant Reinserted(ou, ops, used[..], pairs[..], size, hash, i)
      {
        if oldUsed[i] == Occupied {
          var index := FindPosition(oldPairs[i].0);
          ghost var u, ps, n := used[..], pairs[..], size;
          CreatePair(index, oldPairs[i].0, oldPairs[i].1);
          RebuildStep(ou, ops, u, ps, n, hash, i, index, used[..], pairs[..]);
        } else {
          ReinsertSkip(ou, ops, used[..], pairs[..], size, hash, i);
        }
      }
    }

    /** `check_overload`: double the capacity when one more entry would take
        the load above one half. */
    method CheckOverload() returns (grew: bool)
      requires Valid()
      modifies this
      ensures Valid()
      ensures grew == Overloaded(old(size), old(capacity))
      ensures capacity == if grew then 2 * old(capacity) else old(capacity)
      ensures size == old(size) && Model() == old(Model())
      ensures 2 * (size + 1) <= capacity
      ensures grew ==> fresh(used) && fresh(pairs)
      ensures !grew ==> used == old(used) && pairs == old(pairs)
      ensures !grew ==> used[..] == old(used[..]) && pairs[..] == old(pairs[..])
    {
      if MAX_PERCENT * (size + 1) > TOP_LOAD_FACTOR * capacity {
        DoubleIsPow2(capacity);
        Rebuild(capacity * 2);
        return true;
      }
      return false;
    }

    /** `check_insufficient_load`: halve the capacity when at least four
        entries fill less than a quarter of it. */
    method CheckInsufficientLoad()
      requires Valid()
      modifies this
      ensures Valid()
      ensures capacity == if Underloaded(old(size), old(capacity)) then old(capacity) / 2 else old(capacity)
      ensures Underloaded(old(size), old(capacity)) ==> old(capacity) > 16
      ensures size == old(size) && Model() == old(Model())
      ensures !Underloaded(old(size), old(capacity)) ==> used == old(used) && pairs == old(pairs)
      ensures Underloaded(old(size), old(capacity)) ==> fresh(used) && fresh(pairs)
    {
      if size >= 2 * INITIAL_SIZE && MAX_PERCENT * size < BOTTOM_LOAD_FACTOR * capacity {
        HalfIsPow2(capacity);
        Rebuild(capacity / 2);
      }
    }

    /** `insert`: adds `(key, value)` unless `key` is already present, in
        which case the stored value stays (first insert wins). The growth
        check runs first, even when the key is present. */
    method Insert(key: K, value: V)
      requires Valid()
      modifies this, used, pairs
      ensures Valid()
      ensures key in old(Model()) ==> Model() == old(Model()) && size == old(size)
      ensures key !in old(Model()) ==> Model() == old(Model())[key := value] && size == old(size) + 1
      ensures capacity == if Overloaded(old(size), old(capacity)) then 2 * old(capacity) else old(capacity)
      ensures 2 * size <= capacity
      ensures (used == old(used) || fresh(used)) && (pairs == old(pairs) || fresh(pairs))
    {
      var _ := CheckOverload();
      var index := FindPosition(key);
      ghost var u, ps := used[..], pairs[..];
      ProbeLookup(u, ps, size, hash, key);
      if used[index] == Occupied {
        return;
      }
      InsertAt(u, ps, size, hash, key, value);
      CreatePair(index, key, value);
    }

    /** `erase`: removes `key` if present, then shrinks the table if it is underloaded. */
    method Erase(key: K)
      requires Valid()
      modifies this, used, pairs
      ensures Valid()
      ensures Model() == old(Model()) - {key}
      ensures key !in old(Model()) ==> unchanged(this, old(used), old(pairs))
      ensures key in old(Model()) ==> size == old(size) - 1
      ensures (used == old(used) || fresh(used)) && (pairs == old(pairs) || fresh(pairs))
      ensures capacity == if key in old(Model()) && Underloaded(old(size) - 1, old(capacity))
                          then old(capacity) / 2 else old(capacity)
    {
      var index := FindPosition(key);
      ghost var u, ps := used[..], pairs[..];
      ProbeLookup(u, ps, size, hash, key);
      if used[index] != Occupied {
        assert MapOf(u, ps) - {key} == MapOf(u, ps);
        return;
      }
      EraseAt(u, ps, size, hash, key, blank);
      DeletePair(index);
      CheckInsufficientLoad();
    }

    /** `operator[]`: the value stored for `key`; an absent key is first
        inserted with the default value, growing and re-probing if needed. */
    method Index(key: K) returns (value: V)
      requires Valid()
      modifies this, used, pairs
      ensures Valid()
      ensures key in old(Model()) ==> Model() == old(Model()) && unchanged(this, old(used), old(pairs))
      ensures key !in old(Model()) ==> Model() == old(Model())[key := blank.1] && size == old(size) + 1
      ensures key in Model() && value == Model()[key]
      ensures (used == old(used) || fresh(used)) && (pairs == old(pairs) || fresh(pairs))
      ensures capacity == if key !in old(Model()) && Overloaded(old(size), old(capacity))
                          then 2 * old(capacity) else old(capacity)
    {
      var index := FindPosition(key);
      ghost var u, ps := used[..], pairs[..];
      ProbeLookup(u, ps, size, hash, key);
      if used[index] != Occupied {
        var grew := CheckOverload();
        if grew {
          index := FindPosition(key);
        }
        u, ps := used[..], pairs[..];
        InsertAt(u, ps, size, hash, key, blank.1);
        CreatePair(index, key, blank.1);
      }
      value := pairs[index].1;
    }

    /** `at`: the value stored for `key`, or `out_of_range` when it is absent. */
    method At(key: K) returns (r: Result<V>)
      requires Valid()
      ensures r.Success? <==> key in Model()
      ensures r.Success? ==> r.value == Model()[key]
    {
      var index := FindPosition(key);
      ProbeLookup(used[..], pairs[..], size, hash, key);
      if used[index] != Occupied {
        return Failure(OutOfRange);
      }
      return Success(pairs[index].1);
    }

    /** `size`: the number of entries. */
    method Size() returns (n: nat)
      requires Valid()
      ensures n == |Model()|
    {
      MapOfSize(used[..], pairs[..], size, hash);
      return size;
    }

    /** `empty`. */
    method IsEmpty() returns (b: bool)
      requires Valid()
      ensures b <==> Model() == map[]
    {
      MapOfSize(used[..], pairs[..], size, hash);
      return size == 0;
    }

    /** `clear`: back to an empty table of the initial capacity. */
    method Clear()
      modifies this
      ensures Valid() && fresh(used) && fresh(pairs)
      ensures Model() == map[] && size == 0 && capacity == INITIAL_SIZE
      ensures forall i :: 0 <= i < capacity ==> used[i] == Empty && pairs[i] == blank
    {
      InitialMemory(INITIAL_SIZE);
    }

    /** `begin`: an iterator at the least Occupied index, or at the end. */
    method Begin() returns (it: Iterator<K, V>)
      requires Valid()
      ensures fresh(it) && it.used == used && it.pairs == pairs && it.Valid()
      ensures it.pos == NextOccupied(used[..], 0)
    {
      var b := 0;
      while b != capacity && used[b] != Occupied
        invariant b <= capacity
        invariant NextOccupied(used[..], 0) == NextOccupied(used[..], b)
      {
        b := b + 1;
      }
      it := new Iterator(used, pairs, b);
    }

    /** `end`: the iterator one past the last slot. */
    method End() returns (it: Iterator<K, V>)
      requires Valid()
      ensures fresh(it) && it.used == used && it.pairs == pairs && it.Valid()
      ensures it.pos == capacity
    {
      it := new Iterator(used, pairs, capacity);
    }

    /** `find`: an iterator at the slot holding `key`, or `end()` when it is absent. */
    method Find(key: K) returns (it: Iterator<K, V>)
      requires Valid()
      ensures fresh(it) && it.used == used && it.pairs == pairs && it.Valid()
      ensures it.pos < capacity <==> key in Model()
      ensures it.pos < capacity ==> used[it.pos] == Occupied && pairs[it.pos] == (key, Model()[key])
    {
      var index := FindPosition(key);
      ProbeLookup(used[..], pairs[..], size, hash, key);
      if used[index] != Occupied {
        it := End();
        return;
      }
      it := new Iterator(used, pairs, index);
    }

    /** Copy-assignment as written: a fresh table of the other's capacity
        into which every Occupied entry of the other is copied at the same
        index. Every other slot is left Empty, so Tombstones are lost, and a
        key stored past a Tombstone can become unreachable; the copy is proved
        to keep the invariant when the other had no Tombstones. The hash
        object is not copied; the default pair belongs to the types, so both
        tables share it. */
    method AssignFrom(other: HashMap<K, V>)
      requires other.Valid() && blank == other.blank
      modifies this
      ensures this == other ==> unchanged(this)
      ensures this != other ==> fresh(used) && fresh(pairs)
      ensures this != other ==> && used.Length == capacity == other.capacity && pairs.Length == capacity
                                && size == other.size
                                && used[..] == DropTombstones(other.used[..])
                                && (forall i :: 0 <= i < capacity && used[i] == Occupied ==> pairs[i] == other.pairs[i])
                                && Model() == other.Model()
      ensures NoTombstones(other.used[..]) && hash == other.hash ==> Valid()
    {
      if this == other {
        return;
      }
      var otherUsed, otherPairs := other.used, other.pairs;
      ghost var ou, ops := otherUsed[..], otherPairs[..];
      InitialMemory(other.capacity);
      CopyOccupied(otherUsed, otherPairs);
      CopiedAll(ou, ops, used[..], pairs[..], size);
      if NoTombstones(ou) && hash == other.hash {
        CopyKeepsInv(ou, ops, used[..], pairs[..], size, hash);
      }
    }

    /** The loop of copy-assignment: each Occupied slot of the other table, in
        slot order, goes through `check_overload` and `create_pair` at the same
        index of this freshly emptied table. */
    method CopyOccupied(otherUsed: array<Slot>, otherPairs: array<(K, V)>)
      requires used.Length == capacity == otherUsed.Length && pairs.Length == capacity == otherPairs.Length
      requires otherUsed != used && otherPairs != pairs
      requires size == 0 && forall j :: 0 <= j < capacity ==> used[j] == Empty
      requires 2 * |OccupiedSet(otherUsed[..])| <= capacity
      modifies this, used, pairs
      ensures used == old(used) && pairs == old(pairs) && capacity == old(capacity)
      ensures CopiedBelow(otherUsed[..], otherPairs[..], used[..], pairs[..], size, capacity)
    {
      ghost var ou, ops := otherUsed[..], otherPairs[..];
      for i := 0 to capacity
        invariant used == old(used) && pairs == old(pairs) && capacity == old(capacity)
        invariant CopiedBelow(ou, ops, used[..], pairs[..], size, i)
      {
        CopyStep(ou, ops, used[..], pairs[..], size, i);
        if otherUsed[i] == Occupied {
          // check_overload(): the other's load bound leaves room for every copied entry
          RoomLeft(ou, i);
          if Overloaded(size, capacity) {
            assert false;
          }
          CreatePair(i, otherPairs[i].0, otherPairs[i].1);
        }
      }
    }

    /** Copy-assignment as evidently intended: both arrays copied verbatim,
        Tombstones included, as the copy constructor does, so the walk of
        every stored key still reaches it. */
    method Assign(other: HashMap<K, V>)
      requires other.Valid() && blank == other.blank
      modifies this
      ensures this == other ==> unchanged(this)
      ensures this != other ==> && fresh(used) && fresh(pairs)
                                && capacity == other.capacity && size == other.size
                                && used[..] == other.used[..] && pairs[..] == other.pairs[..]
      ensures used.Length == pairs.Length && Model() == other.Model()
      ensures hash == other.hash ==> Valid()
    {
      if this == other {
        return;
      }
      var ps := other.pairs[..];
      var u := other.used[..];
      pairs := new (K, V)[|ps|](i requires 0 <= i < |ps| => ps[i]);
      used := new Slot[|u|](i requires 0 <= i < |u| => u[i]);
      size, capacity := other.size, other.capacity;
      assert used[..] == u && pairs[..] == ps;
    }
  }

  /** A position of an iteration over a table: the slot index it points at,
      or the capacity for `end()`. The source keeps two addresses that move
      together, one into `used_` and one into `pairs_`. */
  class Iterator<K, V> {
    const used: array<Slot>
    const pairs: array<(K, V)>
    var pos: nat

    ghost predicate Valid()
      reads this
    {
      used.Length == pairs.Length && pos <= used.Length
    }

    constructor(used: array<Slot>, pairs: array<(K, V)>, pos: nat)
      requires used.Length == pairs.Length && pos <= used.Length
      ensures this.used == used && this.pairs == pairs && this.pos == pos && Valid()
    {
      this.used, this.pairs, this.pos := used, pairs, pos;
    }

    /** `operator++`: on to the next Occupied index strictly after the position, or to the end. */
    method Increment()
      requires Valid() && pos < used.Length
      modifies this
      ensures Valid() && pos == NextOccupied(used[..], old(pos) + 1)
    {
      pos := pos + 1;
      while pos != used.Length && used[pos] != Occupied
        invariant old(pos) < pos <= used.Length
        invariant NextOccupied(used[..], old(pos) + 1) == NextOccupied(used[..], pos)
      {
        pos := pos + 1;
      }
    }
  }
}

=== FILE: probing.dfy ===
/**
 The probe sequence of the hash table: the step hash (`compute_shift_hash`)
 and the walk `index = (index + step) % capacity` of `find_position`.

 The main facts proved here: for an even capacity the step is always odd,
 whatever the primary hash and whatever the 64-bit wrap-around does; and for
 a power-of-two capacity an odd step makes the walk visit every slot exactly
 once in its first `capacity` steps, after which it repeats.
 */
module Probing {

  /** 2^64: `size_t` arithmetic wraps modulo this. */
  const WORD: nat := 0x1_0000_0000_0000_0000

  /** A `size_t` value, such as the result of the hash function. */
  type Word = x: nat | x < WORD

  /** The three coefficients of the step hash. */
  const SHIFT_HASH_FACTORS: seq<nat> := [239, 179, 191]

  /** True when `n` is a power of two (1, 2, 4, ...). */
  predicate IsPow2(n: nat) {
    if n <= 1 then n == 1 else n % 2 == 0 && IsPow2(n / 2)
  }

  /** One pass of the multiply-add fold over the remaining coefficients. */
  function ShiftHashFrom(h: Word, cap: nat, rates: seq<nat>, res: nat): (r: nat)
    requires 0 < cap && res < cap
    ensures r < cap
    decreases |rates|
  {
    if rates == [] then res
    else ShiftHashFrom(h, cap, rates[1..], Stage(res, h, rates[0], cap))
  }

  /** One multiply-add stage: `(res * h + rate) % capacity` in `size_t` arithmetic. */
  function Stage(res: nat, h: Word, rate: nat, cap: nat): (r: nat)
    requires 0 < cap
    ensures r < cap
  {
    Reduce(res * h + rate, cap)
  }

  /** A `size_t` value wrapped to 64 bits and reduced modulo the capacity. */
  function Reduce(x: nat, cap: nat): (r: nat)
    requires 0 < cap
    ensures r < cap
  {
    (x % WORD) % cap
  }

  /** `compute_shift_hash`: the step of the probe walk for primary hash `h`. */
  function ShiftHash(h: Word, cap: nat): (step: nat)
    requires 0 < cap
    ensures step < cap
  {
    ShiftHashFrom(h, cap, SHIFT_HASH_FACTORS, 0)
  }

  /** The slot visited after `d` steps of a walk from `start` with step `step`. */
  function ProbeAt(start: nat, step: nat, cap: nat, d: nat): (j: nat)
    requires start < cap
    ensures j < cap
  {
    if d == 0 then start else (ProbeAt(start, step, cap, d - 1) + step) % cap
  }

  /** The slot the walk for primary hash `h` visits after `d` steps. */
  function PathAt(h: Word, cap: nat, d: nat): (j: nat)
    requires 0 < cap
    ensures j < cap
  {
    ProbeAt(h % cap, ShiftHash(h, cap), cap, d)
  }

  /** One more step of the walk adds the step hash, modulo the capacity. */
  lemma PathAtNext(h: Word, cap: nat, d: nat)
    requires 0 < cap
    ensures PathAt(h, cap, d + 1) == (PathAt(h, cap, d) + ShiftHash(h, cap)) % cap
  {
  }

  /** The set of slots visited in the first `m` steps. */
  ghost function PathSlots(h: Word, cap: nat, m: nat): set<nat>
    requires 0 < cap
  {
    set d | 0 <= d < m :: PathAt(h, cap, d)
  }

  // ---------------------------------------------------------------------
  // Arithmetic helpers

  lemma MulAtLeast(a: int, m: int)
    requires 1 <= a && 0 < m
    ensures a * m >= m
  {
    assert a * m == (a - 1) * m + m;
  }

  lemma ProductZero(d: int, m: int)
    requires 0 < m && -m < d * m < m
    ensures d == 0
  {
    if d >= 1 {
      MulAtLeast(d, m);
    } else if d <= -1 {
      MulAtLeast(-d, m);
    }
  }

  /** Euclidean division is unique: `q * m + r` with `0 <= r < m` has quotient `q` and remainder `r`. */
  lemma ModUnique(x: int, q: int, r: int, m: int)
    requires 0 < m && 0 <= r < m && x == q * m + r
    ensures x % m == r && x / m == q
  {
    var q', r' := x / m, x % m;
    assert x == q' * m + r';
    assert (q - q') * m == r' - r;
    ProductZero(q - q', m);
  }

  /** Division with remainder, with the quotient handed out as a plain number. */
  lemma DivMod(x: nat, m: nat) returns (q: nat)
    requires 0 < m
    ensures x == q * m + x % m
  {
    q := x / m;
  }

  lemma ModOfMultiple(q: nat, m: nat)
    requires 0 < m
    ensures (q * m) % m == 0
  {
    ModUnique(q * m, q, 0, m);
  }

  lemma ModAddMultiple(x: nat, q: nat, m: nat)
    requires 0 < m
    ensures (x + q * m) % m == x % m
  {
    var q0 := DivMod(x, m);
    assert x + q * m == (q0 + q) * m + x % m;
    ModUnique(x + q * m, q0 + q, x % m, m);
  }

  lemma ModAddLeft(a: nat, b: nat, m: nat)
    requires 0 < m
    ensures (a % m + b) % m == (a + b) % m
  {
    assert a == (a / m) * m + a % m;
    ModAddMultiple(a % m + b, a / m, m);
  }

  /** Reducing modulo an even number keeps the parity. */
  lemma ParityOfMod(x: nat, m: nat, r: nat)
    requires 0 < m && m % 2 == 0 && r == x % m
    ensures r % 2 == x % 2
  {
    var q := DivMod(x, m);
    ParityShift(x, q, m, m / 2, r);
  }

  lemma ParityShift(x: nat, q: nat, m: nat, h: nat, r: nat)
    requires m % 2 == 0 && h == m / 2 && x == q * m + r
    ensures x % 2 == r % 2
  {
    assert q * m == (q * h) * 2;
    ModAddMultiple(r, q * h, 2);
  }

  lemma ParityOfProduct(a: nat, b: nat)
    ensures (a * b) % 2 == 1 <==> a % 2 == 1 && b % 2 == 1
  {
    var p, r := a / 2, b / 2;
    var k := 2 * p * r + p * (b % 2) + (a % 2) * r;
    assert a * b == k * 2 + (a % 2) * (b % 2);
    ModAddMultiple((a % 2) * (b % 2), k, 2);
  }

  /** The 64-bit wrap and the reduction modulo an even capacity keep the parity. */
  lemma ReduceParity(x: nat, cap: nat)
    requires 0 < cap && cap % 2 == 0
    ensures Reduce(x, cap) % 2 == x % 2
  {
    var y := x % WORD;
    ParityOfMod(y, cap, Reduce(x, cap));
    ParityOfMod(x, WORD, y);
  }

  lemma AffineParity(res: nat, h: nat, rate: nat, x: nat)
    requires x == res * h + rate
    ensures (x % 2 == 1) == ((res % 2 == 1 && h % 2 == 1) != (rate % 2 == 1))
  {
    ParityOfProduct(res, h);
  }

  /** A stage is odd exactly when one, but not both, of `res * h` and `rate` is odd. */
  lemma StageParity(res: nat, h: Word, rate: nat, cap: nat)
    requires 0 < cap && cap % 2 == 0
    ensures (Stage(res, h, rate, cap) % 2 == 1) == ((res % 2 == 1 && h % 2 == 1) != (rate % 2 == 1))
  {
    var x := res * h + rate;
    AffineParity(res, h, rate, x);
    ReduceParity(x, cap);
  }

  /** `compute_shift_hash` is the three multiply-add stages, in order. */
  lemma ShiftHashStages(h: Word, cap: nat)
    requires 0 < cap
    ensures ShiftHash(h, cap) == Stage(Stage(Stage(0, h, 239, cap), h, 179, cap), h, 191, cap)
  {
    var r1 := Stage(0, h, 239, cap);
    var r2 := Stage(r1, h, 179, cap);
    var r3 := Stage(r2, h, 191, cap);
    assert [239, 179, 191][1..] == [179, 191] && [179, 191][1..] == [191] && [191][1..] == [];
    calc {
      ShiftHash(h, cap);
      ShiftHashFrom(h, cap, [239, 179, 191], 0);
      ShiftHashFrom(h, cap, [179, 191], r1);
      ShiftHashFrom(h, cap, [191], r2);
      ShiftHashFrom(h, cap, [], r3);
    }
  }

  /** With an even capacity the step hash is odd: never zero, and coprime to a power-of-two capacity. */
  lemma {:induction false} ShiftHashIsOdd(h: Word, cap: nat)
    requires 0 < cap && cap % 2 == 0
    ensures ShiftHash(h, cap) % 2 == 1
  {
    var r1 := Stage(0, h, 239, cap);
    var r2 := Stage(r1, h, 179, cap);
    ShiftHashStages(h, cap);
    StageParity(0, h, 239, cap);
    StageParity(r1, h, 179, cap);
    StageParity(r2, h, 191, cap);
  }

  /** The walk in closed form: after `d` steps it is at `start + d * step`
      reduced modulo `cap`, that is, the two differ by a multiple `q` of `cap`. */
  lemma {:induction false} ProbeAtClosedForm(start: nat, step: nat, cap: nat, d: nat) returns (q: nat)
    requires start < cap
    ensures start + d * step == q * cap + ProbeAt(start, step, cap, d)
  {
    if d == 0 {
      q := 0;
    } else {
      var q' := ProbeAtClosedForm(start, step, cap, d - 1);
      var p' := ProbeAt(start, step, cap, d - 1);
      var t := DivMod(p' + step, cap);
      q := q' + t;
      assert (q' + t) * cap == q' * cap + t * cap;
      assert start + d * step == start + (d - 1) * step + step;
    }
  }

  /** After `cap` steps the walk is back where it started: it repeats forever. */
  lemma ProbeAtPeriodic(start: nat, step: nat, cap: nat, d: nat)
    requires start < cap
    ensures ProbeAt(start, step, cap, d) == ProbeAt(start, step, cap, d % cap)
  {
    var laps := DivMod(d, cap);
    SameAfterLaps(start, step, cap, laps, d % cap, d);
  }

  lemma SameAfterLaps(start: nat, step: nat, cap: nat, laps: nat, r: nat, d: nat)
    requires start < cap && d == laps * cap + r
    ensures ProbeAt(start, step, cap, d) == ProbeAt(start, step, cap, r)
  {
    var qd := ProbeAtClosedForm(start, step, cap, d);
    var qr := ProbeAtClosedForm(start, step, cap, r);
    SplitProduct(d, laps, cap, r, step);
    SameResidue(ProbeAt(start, step, cap, d), ProbeAt(start, step, cap, r), cap, qd, qr, laps * step);
  }

  lemma SplitProduct(d: nat, laps: nat, cap: nat, r: nat, step: nat)
    requires d == laps * cap + r
    ensures d * step == r * step + (laps * step) * cap
  {
  }

  /** Two residues below `cap` that differ by a multiple of `cap` are equal. */
  lemma SameResidue(a: nat, b: nat, cap: nat, k1: int, k2: int, k3: int)
    requires a < cap && b < cap && k1 * cap + a == k2 * cap + k3 * cap + b
    ensures a == b
  {
    assert (k2 + k3 - k1) * cap == a - b;
    ProductZero(k2 + k3 - k1, cap);
  }

  /** The walk for `h` repeats with period `cap`: step `d` visits the slot of a step below `cap`. */
  lemma PathAtPeriodic(h: Word, cap: nat, d: nat) returns (e: nat)
    requires 0 < cap
    ensures e == d % cap && PathAt(h, cap, d) == PathAt(h, cap, e)
  {
    e := d % cap;
    ProbeAtPeriodic(h % cap, ShiftHash(h, cap), cap, d);
  }

  /** An odd multiple of a positive number below a power of two `n` is not a multiple of `n`. */
  lemma {:induction false} OddMultipleNotMultiple(x: nat, s: nat, n: nat, q: int)
    requires IsPow2(n) && 0 < x < n && s % 2 == 1
    ensures x * s != q * n
  {
    MulAtLeast(x, s);
    if q < 0 {
      MulAtLeast(-q, n);
    } else if q > 0 {
      var h := n / 2;
      if x % 2 == 1 {
        ParityOfProduct(x, s);
        EvenProduct(q, h);
      } else {
        var y := x / 2;
        OddMultipleNotMultiple(y, s, h, q);
        DoubledProducts(y, s, q, h);
      }
    }
  }

  lemma EvenProduct(q: nat, h: nat)
    ensures (q * (2 * h)) % 2 == 0
  {
    assert q * (2 * h) == (q * h) * 2;
    ModOfMultiple(q * h, 2);
  }

  lemma DoubledProducts(y: nat, s: nat, q: nat, h: nat)
    requires y * s != q * h
    ensures (2 * y) * s != q * (2 * h)
  {
    assert (2 * y) * s == 2 * (y * s);
    assert q * (2 * h) == 2 * (q * h);
  }

  /** With an odd step and a power-of-two capacity, the first `cap` slots of the walk are distinct. */
  lemma ProbeAtDistinct(start: nat, step: nat, cap: nat, i: nat, j: nat)
    requires IsPow2(cap) && start < cap && step % 2 == 1
    requires i < j < cap
    ensures ProbeAt(start, step, cap, i) != ProbeAt(start, step, cap, j)
  {
    var qi := ProbeAtClosedForm(start, step, cap, i);
    var qj := ProbeAtClosedForm(start, step, cap, j);
    var pi, pj := ProbeAt(start, step, cap, i), ProbeAt(start, step, cap, j);
    SplitSteps(i, j, step);
    if pi == pj {
      EqualResidues(j - i, step, cap, qi, qj);
    }
  }

  lemma SplitSteps(i: nat, j: nat, step: nat)
    requires i < j
    ensures j * step == i * step + (j - i) * step
  {
  }

  lemma EqualResidues(x: nat, step: nat, cap: nat, qi: nat, qj: nat)
    requires IsPow2(cap) && 0 < x < cap && step % 2 == 1
    ensures x * step != qj * cap - qi * cap
  {
    assert qj * cap - qi * cap == (qj - qi) * cap;
    OddMultipleNotMultiple(x, step, cap, qj - qi);
  }

  /** The walk of any key over a table of power-of-two capacity at least 2 never revisits a slot in its first `cap` steps. */
  lemma PathAtDistinct(h: Word, cap: nat, i: nat, j: nat)
    requires IsPow2(cap) && 2 <= cap
    requires i < j < cap
    ensures PathAt(h, cap, i) != PathAt(h, cap, j)
  {
    ShiftHashIsOdd(h, cap);
    ProbeAtDistinct(h % cap, ShiftHash(h, cap), cap, i, j);
  }

  /** The first `m` steps of the walk visit `m` different slots. */
  lemma {:induction false} PathSlotsCount(h: Word, cap: nat, m: nat)
    requires IsPow2(cap) && 2 <= cap && m <= cap
    ensures |PathSlots(h, cap, m)| == m
  {
    if m > 0 {
      PathSlotsCount(h, cap, m - 1);
      assert PathSlots(h, cap, m) == PathSlots(h, cap, m - 1) + {PathAt(h, cap, m - 1)};
      if PathAt(h, cap, m - 1) in PathSlots(h, cap, m - 1) {
        var d :| 0 <= d < m - 1 && PathAt(h, cap, d) == PathAt(h, cap, m - 1);
        PathAtDistinct(h, cap, d, m - 1);
      }
    }
  }

  /** The walk covers the whole table: every slot is reached within `cap` steps. */
  lemma ProbeCoversTable(h: Word, cap: nat, slot: nat)
    requires IsPow2(cap) && 2 <= cap && slot < cap
    ensures exists d :: 0 <= d < cap && PathAt(h, cap, d) == slot
  {
    var all := Below(cap);
    PathSlotsCount(h, cap, cap);
    var seen := PathSlots(h, cap, cap);
    assert seen <= all;
    assert |all - seen| == |all| - |seen| == 0;
    assert slot in all;
  }

  /** The slot indices `0 .. n-1`. */
  ghost function Below(n: nat): (s: set<nat>)
    ensures forall j: int :: j in s <==> 0 <= j < n
    ensures |s| == n
  {
    if n == 0 then {}
    else
      var s := Below(n - 1);
      assert n - 1 !in s;
      s + {n - 1}
  }
}

=== FILE: slots.dfy ===
/**
 The slot table as values: the tag of every slot (`used_`), the stored pairs
 (`pairs_`), the invariant a table keeps between operations, and the result
 of the probe walk of `find_position`, both as the source writes it and with
 the walk bounded to one lap of the table.
 */
module Slots {
  import opened Probing

  /** The tag of a slot: `used_[i]` is 0, 1 or 2. */
  datatype Slot = Empty | Occupied | Tombstone

  datatype Option<T> = None | Some(value: T)

  /** The indices of the Occupied slots. */
  ghost function OccupiedSet(u: seq<Slot>): set<nat> {
    set i: nat | i < |u| && u[i] == Occupied
  }

  /** Some Occupied slot holds `key`. */
  ghost predicate HasKey<K, V>(u: seq<Slot>, ps: seq<(K, V)>, key: K)
    requires |u| == |ps|
  {
    exists i :: 0 <= i < |u| && u[i] == Occupied && ps[i].0 == key
  }

  /** No two Occupied slots hold the same key. */
  ghost predicate DistinctKeys<K, V>(u: seq<Slot>, ps: seq<(K, V)>)
    requires |u| == |ps|
  {
    forall i, j :: 0 <= i < |u| && 0 <= j < |u| && u[i] == Occupied && u[j] == Occupied && ps[i].0 == ps[j].0 ==> i == j
  }

  /** The walk for `key` stops at slot `j`: the loop of `find_position`
      continues only past a Tombstone or an Occupied slot with another key. */
  predicate Stops<K(==), V>(u: seq<Slot>, ps: seq<(K, V)>, key: K, j: nat)
    requires |u| == |ps| && j < |u|
  {
    u[j] == Empty || (u[j] == Occupied && ps[j].0 == key)
  }

  /** The first `d` steps of the walk for primary hash `h` pass no Empty slot. */
  ghost predicate CleanPath(u: seq<Slot>, h: Word, d: nat)
    requires 0 < |u|
  {
    forall e :: 0 <= e < d ==> u[PathAt(h, |u|, e)] != Empty
  }

  /** The key in slot `j` is found by its own walk: the walk reaches `j`
      within one lap without passing an Empty slot. */
  ghost predicate ReachableAt<K, V>(u: seq<Slot>, ps: seq<(K, V)>, hash: K -> Word, j: nat)
    requires 0 < |u| == |ps| && j < |u|
  {
    exists d :: 0 <= d < |u| && PathAt(hash(ps[j].0), |u|, d) == j && CleanPath(u, hash(ps[j].0), d)
  }

  ghost predicate Reachable<K, V>(u: seq<Slot>, ps: seq<(K, V)>, hash: K -> Word)
    requires 0 < |u| == |ps|
  {
    forall j :: 0 <= j < |u| && u[j] == Occupied ==> ReachableAt(u, ps, hash, j)
  }

  /** The shape the walk needs: a power-of-two table with a slot that is not Occupied. */
  ghost predicate HasFreeSlot<K, V>(u: seq<Slot>, ps: seq<(K, V)>) {
    |u| == |ps| && 2 <= |u| && IsPow2(|u|) && |OccupiedSet(u)| < |u|
  }

  /** The invariant of a table with `size` entries between two operations. */
  ghost predicate TableInv<K, V>(u: seq<Slot>, ps: seq<(K, V)>, size: nat, hash: K -> Word) {
    && |u| == |ps|
    && 2 <= |u| && IsPow2(|u|)
    && size == |OccupiedSet(u)|
    && 2 * size <= |u|
    && DistinctKeys(u, ps)
    && Reachable(u, ps, hash)
  }

  // ---------------------------------------------------------------------
  // The probe walk of find_position

  /** The first step at or after `d`, within one lap, at which the walk for `key` stops. */
  ghost function FirstStop<K, V>(u: seq<Slot>, ps: seq<(K, V)>, key: K, h: Word, d: nat): (r: Option<nat>)
    requires 0 < |u| == |ps|
    ensures r.None? ==> forall e :: d <= e < |u| ==> !Stops(u, ps, key, PathAt(h, |u|, e))
    ensures r.Some? ==> d <= r.value < |u| && Stops(u, ps, key, PathAt(h, |u|, r.value))
    ensures r.Some? ==> forall e :: d <= e < r.value ==> !Stops(u, ps, key, PathAt(h, |u|, e))
    decreases |u| - d
  {
    if d >= |u| then None
    else if Stops(u, ps, key, PathAt(h, |u|, d)) then Some(d)
    else FirstStop(u, ps, key, h, d + 1)
  }

  /** The first step below `d` at which the walk passes a Tombstone (`first_zero`). */
  ghost function FirstTombstone(u: seq<Slot>, h: Word, d: nat): (r: Option<nat>)
    requires 0 < |u|
    ensures r.None? ==> forall e :: 0 <= e < d ==> u[PathAt(h, |u|, e)] != Tombstone
    ensures r.Some? ==> r.value < d && u[PathAt(h, |u|, r.value)] == Tombstone
    ensures r.Some? ==> forall e :: 0 <= e < r.value ==> u[PathAt(h, |u|, e)] != Tombstone
  {
    if d == 0 then None
    else match FirstTombstone(u, h, d - 1)
      case Some(e) => Some(e)
      case None => if u[PathAt(h, |u|, d - 1)] == Tombstone then Some(d - 1) else None
  }

  /** `find_position` as written: `None` when its loop never ends. When it
      stops, it answers the stopping slot if that slot is Occupied or its
      stored key equals `key` (so an Empty slot still holding `key` wins over
      a Tombstone), else the first Tombstone passed, else the stopping slot. */
  ghost function SourceProbe<K, V>(u: seq<Slot>, ps: seq<(K, V)>, key: K, h: Word): (r: Option<nat>)
    requires 0 < |u| == |ps|
    ensures r.None? <==> forall e :: 0 <= e < |u| ==> !Stops(u, ps, key, PathAt(h, |u|, e))
    ensures r.Some? ==> r.value < |u|
    ensures r.Some? && u[r.value] == Occupied ==> ps[r.value].0 == key
  {
    match FirstStop(u, ps, key, h, 0)
    case None => None
    case Some(d) =>
      var j := PathAt(h, |u|, d);
      if u[j] == Occupied || ps[j].0 == key then Some(j)
      else match FirstTombstone(u, h, d)
        case Some(e) => Some(PathAt(h, |u|, e))
        case None => Some(j)
  }

  /** `find_position` with the walk bounded to one lap: the answer of the
      source whenever the source answers, else the first Tombstone of the lap. */
  ghost function Probe<K, V>(u: seq<Slot>, ps: seq<(K, V)>, key: K, h: Word): (j: nat)
    requires HasFreeSlot(u, ps)
    ensures j < |u|
  {
    match SourceProbe(u, ps, key, h)
    case Some(j) => j
    case None =>
      LapHasTombstone(u, ps, key, h);
      PathAt(h, |u|, FirstTombstone(u, h, |u|).value)
  }

  /** What the loop of `find_position` has found once it leaves after `d`
      steps, having remembered `firstZero`: the answer of the walk, and of
      the source when the source stops. */
  lemma WalkAnswer<K, V>(u: seq<Slot>, ps: seq<(K, V)>, key: K, h: Word, d: nat, firstZero: nat)
    requires HasFreeSlot(u, ps) && d <= |u|
    requires FirstStop(u, ps, key, h, 0) == FirstStop(u, ps, key, h, d)
    requires d < |u| ==> Stops(u, ps, key, PathAt(h, |u|, d))
    requires firstZero == match FirstTombstone(u, h, d)
                            case None => |u|
                            case Some(e) => PathAt(h, |u|, e)
    ensures d == |u| ==> firstZero < |u| && Probe(u, ps, key, h) == firstZero && SourceProbe(u, ps, key, h).None?
    ensures d < |u| ==> && SourceProbe(u, ps, key, h) == Some(Probe(u, ps, key, h))
                        && Probe(u, ps, key, h) == (var j := PathAt(h, |u|, d);
                                                    if u[j] == Occupied || ps[j].0 == key then j
                                                    else if firstZero != |u| then firstZero
                                                    else j)
  {
    if d == |u| {
      LapHasTombstone(u, ps, key, h);
    } else {
      assert FirstStop(u, ps, key, h, d) == Some(d);
    }
  }

  /** A lap in which the walk never stops passes a Tombstone, because the lap
      visits every slot and fewer than all slots are Occupied. */
  lemma LapHasTombstone<K, V>(u: seq<Slot>, ps: seq<(K, V)>, key: K, h: Word)
    requires |u| == |ps| && 2 <= |u| && IsPow2(|u|) && |OccupiedSet(u)| < |u|
    requires FirstStop(u, ps, key, h, 0).None?
    ensures FirstTombstone(u, h, |u|).Some?
  {
    if FirstTombstone(u, h, |u|).None? {
      var lap := PathSlots(h, |u|, |u|);
      forall s | s in lap ensures s in OccupiedSet(u) {
        var e :| 0 <= e < |u| && PathAt(h, |u|, e) == s;
      }
      PathSlotsCount(h, |u|, |u|);
      SubsetCard(lap, OccupiedSet(u));
    }
  }

  lemma SubsetCard<T>(a: set<T>, b: set<T>)
    requires a <= b
    ensures |a| <= |b|
  {
    assert b == a + (b - a);
  }

  /** When the source's loop does not stop within one lap it never stops:
      the walk repeats with period `capacity`. */
  lemma SourceProbeNeverReturns<K, V>(u: seq<Slot>, ps: seq<(K, V)>, key: K, h: Word, d: nat)
    requires 0 < |u| == |ps|
    requires SourceProbe(u, ps, key, h).None?
    ensures !Stops(u, ps, key, PathAt(h, |u|, d))
  {
    var e := PathAtPeriodic(h, |u|, d);
    assert FirstStop(u, ps, key, h, 0).None?;
  }

  /** A present key is found: the walk answers its slot, and so does the source. */
  lemma {:induction false} ProbeFindsKey<K, V>(u: seq<Slot>, ps: seq<(K, V)>, size: nat, hash: K -> Word, j: nat)
    requires TableInv(u, ps, size, hash)
    requires j < |u| && u[j] == Occupied
    ensures SourceProbe(u, ps, ps[j].0, hash(ps[j].0)) == Some(j)
    ensures Probe(u, ps, ps[j].0, hash(ps[j].0)) == j
  {
    var key := ps[j].0;
    var h := hash(key);
    assert ReachableAt(u, ps, hash, j);
    var d :| 0 <= d < |u| && PathAt(h, |u|, d) == j && CleanPath(u, h, d);
    var stop := FirstStop(u, ps, key, h, 0);
    assert Stops(u, ps, key, PathAt(h, |u|, d));
    assert stop.Some? && stop.value <= d;
    var s := stop.value;
    if s < d {
      assert u[PathAt(h, |u|, s)] != Empty;
    }
  }

  /** An absent key gets a free slot on its own walk, reached without
      passing an Empty slot: the place where inserting it keeps it findable. */
  lemma {:induction false} ProbeOfAbsentKey<K, V>(u: seq<Slot>, ps: seq<(K, V)>, size: nat, hash: K -> Word, key: K)
    requires TableInv(u, ps, size, hash)
    requires !HasKey(u, ps, key)
    ensures u[Probe(u, ps, key, hash(key))] != Occupied
    ensures exists d :: 0 <= d < |u| && PathAt(hash(key), |u|, d) == Probe(u, ps, key, hash(key)) && CleanPath(u, hash(key), d)
  {
    var h := hash(key);
    var r := Probe(u, ps, key, h);
    match FirstStop(u, ps, key, h, 0)
    case None =>
      LapHasTombstone(u, ps, key, h);
      var e := FirstTombstone(u, h, |u|).value;
      assert PathAt(h, |u|, e) == r && CleanPath(u, h, e);
    case Some(s) =>
      var j := PathAt(h, |u|, s);
      if u[j] == Occupied || ps[j].0 == key {
        assert j == r && CleanPath(u, h, s);
      } else {
        match FirstTombstone(u, h, s)
        case Some(e) =>
          assert PathAt(h, |u|, e) == r && CleanPath(u, h, e);
        case None =>
          assert j == r && CleanPath(u, h, s);
      }
  }

  // ---------------------------------------------------------------------
  // Slot transitions and the invariant

  /** Every slot Empty: the table `initial_memory` makes. */
  lemma EmptyTableInv<K, V>(u: seq<Slot>, ps: seq<(K, V)>, hash: K -> Word)
    requires |u| == |ps| && 2 <= |u| && IsPow2(|u|)
    requires forall i :: 0 <= i < |u| ==> u[i] == Empty
    ensures TableInv(u, ps, 0, hash)
    ensures MapOf(u, ps) == map[]
  {
    assert OccupiedSet(u) == {};
    EmptyPrefixMap(u, ps, |u|);
  }

  /** A walk that passed no Empty slot still passes none once some slots are no longer Empty. */
  lemma CleanPathKept(u: seq<Slot>, u': seq<Slot>, h: Word, d: nat)
    requires 0 < |u| == |u'|
    requires forall i :: 0 <= i < |u| && u[i] != Empty ==> u'[i] != Empty
    requires CleanPath(u, h, d)
    ensures CleanPath(u', h, d)
  {
  }

  /** `create_pair` at the slot the walk answers for an absent key keeps the invariant. */
  lemma {:induction false} CreateKeepsInv<K, V>(u: seq<Slot>, ps: seq<(K, V)>, size: nat, hash: K -> Word, key: K, value: V, j: nat)
    requires TableInv(u, ps, size, hash) && 2 * (size + 1) <= |u|
    requires !HasKey(u, ps, key)
    requires j == Probe(u, ps, key, hash(key))
    ensures TableInv(u[j := Occupied], ps[j := (key, value)], size + 1, hash)
  {
    ProbeOfAbsentKey(u, ps, size, hash, key);
    OccupiedSetAdd(u, j);
    CreateKeepsDistinct(u, ps, j, key, value);
    CreateKeepsReachable(u, ps, hash, key, value, j);
  }

  /** Storing a key no Occupied slot holds keeps the keys distinct. */
  lemma CreateKeepsDistinct<K, V>(u: seq<Slot>, ps: seq<(K, V)>, j: nat, key: K, value: V)
    requires |u| == |ps| && DistinctKeys(u, ps) && !HasKey(u, ps, key) && j < |u|
    ensures DistinctKeys(u[j := Occupied], ps[j := (key, value)])
  {
  }

  /** Storing a key at a slot its walk reaches without passing an Empty slot
      keeps every stored key findable. */
  lemma CreateKeepsReachable<K, V>(u: seq<Slot>, ps: seq<(K, V)>, hash: K -> Word, key: K, value: V, j: nat)
    requires 0 < |u| == |ps| && j < |u| && Reachable(u, ps, hash)
    requires exists d :: 0 <= d < |u| && PathAt(hash(key), |u|, d) == j && CleanPath(u, hash(key), d)
    ensures Reachable(u[j := Occupied], ps[j := (key, value)], hash)
  {
    var u', ps' := u[j := Occupied], ps[j := (key, value)];
    forall i | 0 <= i < |u'| && u'[i] == Occupied ensures ReachableAt(u', ps', hash, i) {
      var h := hash(ps'[i].0);
      if i != j {
        assert ReachableAt(u, ps, hash, i);
      }
      var d :| 0 <= d < |u| && PathAt(h, |u|, d) == i && CleanPath(u, h, d);
      CleanPathKept(u, u', h, d);
    }
  }

  /** `delete_pair` on an Occupied slot keeps the invariant. */
  lemma {:induction false} DeleteKeepsInv<K, V>(u: seq<Slot>, ps: seq<(K, V)>, size: nat, hash: K -> Word, j: nat, blank: (K, V))
    requires TableInv(u, ps, size, hash)
    requires j < |u| && u[j] == Occupied
    ensures 0 < size
    ensures TableInv(u[j := Tombstone], ps[j := blank], size - 1, hash)
  {
    var u', ps' := u[j := Tombstone], ps[j := blank];
    OccupiedSetRemove(u, j, Tombstone);
    DeleteKeepsDistinct(u, ps, j, blank);
    DeleteKeepsReachable(u, ps, hash, j, blank);
  }

  /** Turning an Occupied slot into another tag removes it from the Occupied set. */
  lemma OccupiedSetRemove(u: seq<Slot>, j: nat, t: Slot)
    requires j < |u| && u[j] == Occupied && t != Occupied
    ensures j in OccupiedSet(u)
    ensures OccupiedSet(u[j := t]) == OccupiedSet(u) - {j}
    ensures |OccupiedSet(u[j := t])| == |OccupiedSet(u)| - 1
  {
    assert OccupiedSet(u[j := t]) == OccupiedSet(u) - {j};
  }

  lemma DeleteKeepsDistinct<K, V>(u: seq<Slot>, ps: seq<(K, V)>, j: nat, blank: (K, V))
    requires |u| == |ps| && j < |u| && DistinctKeys(u, ps)
    ensures DistinctKeys(u[j := Tombstone], ps[j := blank])
  {
  }

  lemma DeleteKeepsReachable<K, V>(u: seq<Slot>, ps: seq<(K, V)>, hash: K -> Word, j: nat, blank: (K, V))
    requires 0 < |u| == |ps| && j < |u| && Reachable(u, ps, hash)
    ensures Reachable(u[j := Tombstone], ps[j := blank], hash)
  {
    var u', ps' := u[j := Tombstone], ps[j := blank];
    forall i | 0 <= i < |u'| && u'[i] == Occupied ensures ReachableAt(u', ps', hash, i) {
      assert ReachableAt(u, ps, hash, i);
      var h := hash(ps'[i].0);
      var d :| 0 <= d < |u| && PathAt(h, |u|, d) == i && CleanPath(u, h, d);
      CleanPathKept(u, u', h, d);
    }
  }

  // ---------------------------------------------------------------------
  // The map the table holds

  /** The map the Occupied slots below `i` hold, read in index order. */
  ghost function PrefixMap<K, V>(u: seq<Slot>, ps: seq<(K, V)>, i: nat): map<K, V>
    requires i <= |u| == |ps|
  {
    if i == 0 then map[]
    else if u[i - 1] == Occupied then PrefixMap(u, ps, i - 1)[ps[i - 1].0 := ps[i - 1].1]
    else PrefixMap(u, ps, i - 1)
  }

  /** The map the table holds: every Occupied slot's pair. */
  ghost function MapOf<K, V>(u: seq<Slot>, ps: seq<(K, V)>): map<K, V>
    requires |u| == |ps|
  {
    PrefixMap(u, ps, |u|)
  }

  /** A key is in the prefix map exactly when an Occupied slot below `i`
      holds it, and with distinct keys its value is that slot's. */
  lemma {:induction false} PrefixMapKeys<K, V>(u: seq<Slot>, ps: seq<(K, V)>, i: nat)
    requires i <= |u| == |ps| && DistinctKeys(u, ps)
    ensures forall k :: k in PrefixMap(u, ps, i) <==> exists j :: 0 <= j < i && u[j] == Occupied && ps[j].0 == k
    ensures forall j :: 0 <= j < i && u[j] == Occupied ==> PrefixMap(u, ps, i)[ps[j].0] == ps[j].1
  {
    if i > 0 {
      PrefixMapKeys(u, ps, i - 1);
    }
  }

  /** With distinct keys, the map holds exactly the stored keys, each with its slot's value. */
  lemma MapOfKeys<K, V>(u: seq<Slot>, ps: seq<(K, V)>)
    requires |u| == |ps| && DistinctKeys(u, ps)
    ensures forall k :: k in MapOf(u, ps) <==> HasKey(u, ps, k)
    ensures forall i :: 0 <= i < |u| && u[i] == Occupied ==> ps[i].0 in MapOf(u, ps) && MapOf(u, ps)[ps[i].0] == ps[i].1
  {
    PrefixMapKeys(u, ps, |u|);
  }

  /** With distinct keys, the prefix map has one key per Occupied slot below `i`. */
  lemma {:induction false} PrefixMapSize<K, V>(u: seq<Slot>, ps: seq<(K, V)>, i: nat)
    requires i <= |u| == |ps| && DistinctKeys(u, ps)
    ensures |PrefixMap(u, ps, i)| == CountOccupied(u, i)
  {
    if i > 0 {
      PrefixMapSize(u, ps, i - 1);
      if u[i - 1] == Occupied {
        PrefixMapFresh(u, ps, i - 1);
      }
    }
  }

  /** `size_` counts the entries of the map. */
  lemma MapOfSize<K, V>(u: seq<Slot>, ps: seq<(K, V)>, size: nat, hash: K -> Word)
    requires TableInv(u, ps, size, hash)
    ensures |MapOf(u, ps)| == size
  {
    PrefixMapSize(u, ps, |u|);
    CountOccupiedAll(u);
  }

  /** The key of an Occupied slot is not yet in the map of the slots before it. */
  lemma PrefixMapFresh<K, V>(u: seq<Slot>, ps: seq<(K, V)>, i: nat)
    requires i < |u| == |ps| && DistinctKeys(u, ps) && u[i] == Occupied
    ensures ps[i].0 !in PrefixMap(u, ps, i)
  {
    PrefixMapKeys(u, ps, i);
  }

  /** A table whose slots are all Empty holds the empty map. */
  lemma {:induction false} EmptyPrefixMap<K, V>(u: seq<Slot>, ps: seq<(K, V)>, i: nat)
    requires i <= |u| == |ps|
    requires forall j :: 0 <= j < |u| ==> u[j] == Empty
    ensures PrefixMap(u, ps, i) == map[]
  {
    if i > 0 {
      EmptyPrefixMap(u, ps, i - 1);
    }
  }

  /** Tags and pairs that agree on which slots are Occupied and on what those
      hold give the same map. */
  lemma {:induction false} SameOccupiedPrefix<K, V>(u: seq<Slot>, ps: seq<(K, V)>, u': seq<Slot>, ps': seq<(K, V)>, i: nat)
    requires i <= |u| == |ps| == |u'| == |ps'|
    requires forall j :: 0 <= j < |u| ==> (u'[j] == Occupied <==> u[j] == Occupied)
    requires forall j :: 0 <= j < |u| && u[j] == Occupied ==> ps'[j] == ps[j]
    ensures PrefixMap(u', ps', i) == PrefixMap(u, ps, i)
  {
    if i > 0 {
      SameOccupiedPrefix(u, ps, u', ps', i - 1);
    }
  }

  /** The same agreement keeps distinct keys and the Occupied set. */
  lemma SameOccupiedShape<K, V>(u: seq<Slot>, ps: seq<(K, V)>, u': seq<Slot>, ps': seq<(K, V)>)
    requires |u| == |ps| == |u'| == |ps'|
    requires forall j :: 0 <= j < |u| ==> (u'[j] == Occupied <==> u[j] == Occupied)
    requires forall j :: 0 <= j < |u| && u[j] == Occupied ==> ps'[j] == ps[j]
    requires DistinctKeys(u, ps)
    ensures DistinctKeys(u', ps') && OccupiedSet(u') == OccupiedSet(u)
  {
  }

  /** Pairs that agree on the Occupied slots keep every stored key findable. */
  lemma SameOccupiedReachable<K, V>(u: seq<Slot>, ps: seq<(K, V)>, ps': seq<(K, V)>, hash: K -> Word)
    requires 0 < |u| == |ps| == |ps'|
    requires forall i :: 0 <= i < |u| && u[i] == Occupied ==> ps'[i] == ps[i]
    requires Reachable(u, ps, hash)
    ensures Reachable(u, ps', hash)
  {
    forall j | 0 <= j < |u| && u[j] == Occupied ensures ReachableAt(u, ps', hash, j) {
      assert ReachableAt(u, ps, hash, j);
    }
  }

  /** `create_pair` of an absent key on a slot that is not Occupied adds the pair to the map. */
  lemma CreateMap<K, V>(u: seq<Slot>, ps: seq<(K, V)>, j: nat, key: K, value: V)
    requires |u| == |ps| && DistinctKeys(u, ps)
    requires j < |u| && u[j] != Occupied && !HasKey(u, ps, key)
    ensures DistinctKeys(u[j := Occupied], ps[j := (key, value)])
    ensures MapOf(u[j := Occupied], ps[j := (key, value)]) == MapOf(u, ps)[key := value]
  {
    var u', ps' := u[j := Occupied], ps[j := (key, value)];
    MapOfKeys(u, ps);
    MapOfKeys(u', ps');
    var l, r := MapOf(u', ps'), MapOf(u, ps)[key := value];
    forall k | k in r ensures k in l && l[k] == r[k] {
      if k != key {
        assert k in MapOf(u, ps);
        assert HasKey(u, ps, k);
        var i :| 0 <= i < |u| && u[i] == Occupied && ps[i].0 == k;
        assert u'[i] == Occupied && ps'[i] == ps[i];
      } else {
        assert u'[j] == Occupied && ps'[j] == (key, value);
      }
    }
    forall k | k in l ensures k in r {
      assert HasKey(u', ps', k);
      var i :| 0 <= i < |u'| && u'[i] == Occupied && ps'[i].0 == k;
      if i != j {
        assert HasKey(u, ps, k);
      }
    }
  }

  /** `delete_pair` on an Occupied slot removes its key from the map. */
  lemma DeleteMap<K, V>(u: seq<Slot>, ps: seq<(K, V)>, j: nat, blank: (K, V))
    requires |u| == |ps| && DistinctKeys(u, ps)
    requires j < |u| && u[j] == Occupied
    ensures MapOf(u[j := Tombstone], ps[j := blank]) == MapOf(u, ps) - {ps[j].0}
  {
    var u', ps' := u[j := Tombstone], ps[j := blank];
    DeleteKeepsDistinct(u, ps, j, blank);
    MapOfKeys(u, ps);
    MapOfKeys(u', ps');
    var l, r := MapOf(u', ps'), MapOf(u, ps) - {ps[j].0};
    forall k | k in r ensures k in l && l[k] == r[k] {
      assert k in MapOf(u, ps);
      assert HasKey(u, ps, k);
      var i :| 0 <= i < |u| && u[i] == Occupied && ps[i].0 == k;
      assert u'[i] == Occupied && ps'[i] == ps[i];
    }
    forall k | k in l ensures k in r {
      assert HasKey(u', ps', k);
      var i :| 0 <= i < |u'| && u'[i] == Occupied && ps'[i].0 == k;
      assert u[i] == Occupied && ps[i] == ps'[i];
    }
  }

  // ---------------------------------------------------------------------
  // Counting Occupied slots by prefix

  /** The number of Occupied slots below `i`. */
  function CountOccupied(u: seq<Slot>, i: nat): (n: nat)
    requires i <= |u|
    ensures n <= i
  {
    if i == 0 then 0
    else if u[i - 1] == Occupied then CountOccupied(u, i - 1) + 1
    else CountOccupied(u, i - 1)
  }

  /** The Occupied slots below `i`. */
  ghost function OccupiedUpTo(u: seq<Slot>, i: nat): set<nat> {
    set j: nat | j < i && j < |u| && u[j] == Occupied
  }

  /** Moving the bound past slot `i - 1` adds that slot exactly when it is Occupied. */
  lemma OccupiedUpToStep(u: seq<Slot>, i: nat)
    requires 0 < i <= |u|
    ensures u[i - 1] == Occupied ==> OccupiedUpTo(u, i) == OccupiedUpTo(u, i - 1) + {i - 1}
    ensures u[i - 1] != Occupied ==> OccupiedUpTo(u, i) == OccupiedUpTo(u, i - 1)
  {
  }

  /** The count below `i` is the number of Occupied slots below `i`. */
  lemma {:induction false} CountOccupiedBelow(u: seq<Slot>, i: nat)
    requires i <= |u|
    ensures CountOccupied(u, i) == |OccupiedUpTo(u, i)|
  {
    if i > 0 {
      CountOccupiedBelow(u, i - 1);
      OccupiedUpToStep(u, i);
      assert i - 1 !in OccupiedUpTo(u, i - 1);
    } else {
      assert OccupiedUpTo(u, 0) == {};
    }
  }

  /** Over the whole table, the count is the size of the Occupied set. */
  lemma CountOccupiedAll(u: seq<Slot>)
    ensures CountOccupied(u, |u|) == |OccupiedSet(u)|
  {
    CountOccupiedBelow(u, |u|);
    assert OccupiedUpTo(u, |u|) == OccupiedSet(u);
  }

  /** While copying or re-inserting the entries of `u` in index order, an
      Occupied slot `i` not yet reached leaves room: fewer than all entries
      have been placed. */
  lemma RoomLeft(u: seq<Slot>, i: nat)
    requires i < |u| && u[i] == Occupied
    ensures CountOccupied(u, i) + 1 <= |OccupiedSet(u)|
  {
    CountOccupiedBelow(u, i);
    assert OccupiedUpTo(u, i) + {i} <= OccupiedSet(u);
    assert i !in OccupiedUpTo(u, i);
    SubsetCard(OccupiedUpTo(u, i) + {i}, OccupiedSet(u));
  }

  /** Making a non-Occupied slot Occupied adds it to the Occupied set. */
  lemma OccupiedSetAdd(u: seq<Slot>, j: nat)
    requires j < |u| && u[j] != Occupied
    ensures OccupiedSet(u[j := Occupied]) == OccupiedSet(u) + {j}
    ensures |OccupiedSet(u[j := Occupied])| == |OccupiedSet(u)| + 1
  {
    assert OccupiedSet(u[j := Occupied]) == OccupiedSet(u) + {j};
  }

  /** The capacity can be halved or doubled and stay a power of two. */
  lemma HalfIsPow2(n: nat)
    requires IsPow2(n) && 4 <= n
    ensures IsPow2(n / 2) && 2 <= n / 2 && n == 2 * (n / 2)
  {
  }

  lemma DoubleIsPow2(n: nat)
    requires IsPow2(n)
    ensures IsPow2(2 * n)
  {
    assert (2 * n) / 2 == n;
  }

  // ---------------------------------------------------------------------
  // Whole operations on the table

  /** The answer of the walk is Occupied exactly when the key is stored, and
      then it is the slot holding the key. */
  lemma ProbeAnswers<K, V>(u: seq<Slot>, ps: seq<(K, V)>, size: nat, hash: K -> Word, key: K)
    requires TableInv(u, ps, size, hash)
    ensures u[Probe(u, ps, key, hash(key))] == Occupied <==> HasKey(u, ps, key)
    ensures u[Probe(u, ps, key, hash(key))] == Occupied ==> ps[Probe(u, ps, key, hash(key))].0 == key
  {
    if HasKey(u, ps, key) {
      var i :| 0 <= i < |u| && u[i] == Occupied && ps[i].0 == key;
      ProbeFindsKey(u, ps, size, hash, i);
    } else {
      ProbeOfAbsentKey(u, ps, size, hash, key);
    }
  }

  /** The answer of the walk is Occupied exactly when the key is in the map,
      and then it holds the key with its value. */
  lemma ProbeLookup<K, V>(u: seq<Slot>, ps: seq<(K, V)>, size: nat, hash: K -> Word, key: K)
    requires TableInv(u, ps, size, hash)
    ensures u[Probe(u, ps, key, hash(key))] == Occupied <==> key in MapOf(u, ps)
    ensures key in MapOf(u, ps) ==> ps[Probe(u, ps, key, hash(key))] == (key, MapOf(u, ps)[key])
  {
    ProbeAnswers(u, ps, size, hash, key);
    MapOfKeys(u, ps);
  }

  /** Storing an absent key at the answer of its walk adds it to the map and
      keeps the invariant, provided the load leaves room for it. */
  lemma InsertAt<K, V>(u: seq<Slot>, ps: seq<(K, V)>, size: nat, hash: K -> Word, key: K, value: V)
    requires TableInv(u, ps, size, hash) && 2 * (size + 1) <= |u| && key !in MapOf(u, ps)
    ensures u[Probe(u, ps, key, hash(key))] != Occupied
    ensures TableInv(u[Probe(u, ps, key, hash(key)) := Occupied], ps[Probe(u, ps, key, hash(key)) := (key, value)], size + 1, hash)
    ensures MapOf(u[Probe(u, ps, key, hash(key)) := Occupied], ps[Probe(u, ps, key, hash(key)) := (key, value)])
            == MapOf(u, ps)[key := value]
  {
    var j := Probe(u, ps, key, hash(key));
    MapOfKeys(u, ps);
    ProbeOfAbsentKey(u, ps, size, hash, key);
    CreateKeepsInv(u, ps, size, hash, key, value, j);
    CreateMap(u, ps, j, key, value);
  }

  /** Deleting a present key at the answer of its walk removes it from the
      map and keeps the invariant. */
  lemma EraseAt<K, V>(u: seq<Slot>, ps: seq<(K, V)>, size: nat, hash: K -> Word, key: K, blank: (K, V))
    requires TableInv(u, ps, size, hash) && key in MapOf(u, ps)
    ensures u[Probe(u, ps, key, hash(key))] == Occupied && 0 < size
    ensures TableInv(u[Probe(u, ps, key, hash(key)) := Tombstone], ps[Probe(u, ps, key, hash(key)) := blank], size - 1, hash)
    ensures MapOf(u[Probe(u, ps, key, hash(key)) := Tombstone], ps[Probe(u, ps, key, hash(key)) := blank])
            == MapOf(u, ps) - {key}
  {
    var j := Probe(u, ps, key, hash(key));
    ProbeLookup(u, ps, size, hash, key);
    DeleteKeepsInv(u, ps, size, hash, j, blank);
    DeleteMap(u, ps, j, blank);
  }

  /** Midway through `rebuild`: the new table has no Tombstones and holds
      exactly the entries of the old slots below `i`. */
  ghost predicate Reinserted<K, V>(ou: seq<Slot>, ops: seq<(K, V)>, u: seq<Slot>, ps: seq<(K, V)>, size: nat, hash: K -> Word, i: nat)
    requires i <= |ou| == |ops|
  {
    && TableInv(u, ps, size, hash) && NoTombstones(u)
    && MapOf(u, ps) == PrefixMap(ou, ops, i) && size == CountOccupied(ou, i)
  }

  /** A slot that is not Occupied adds nothing to re-insert. */
  lemma ReinsertSkip<K, V>(ou: seq<Slot>, ops: seq<(K, V)>, u: seq<Slot>, ps: seq<(K, V)>, size: nat, hash: K -> Word, i: nat)
    requires i < |ou| == |ops| && ou[i] != Occupied
    requires Reinserted(ou, ops, u, ps, size, hash, i)
    ensures Reinserted(ou, ops, u, ps, size, hash, i + 1)
  {
  }

  /** One step of `rebuild`: re-inserting the entry of old slot `i` at the
      answer `j` of its walk keeps the new table free of Tombstones and adds
      that entry to it. */
  lemma RebuildStep<K, V>(ou: seq<Slot>, ops: seq<(K, V)>, u: seq<Slot>, ps: seq<(K, V)>, size: nat, hash: K -> Word, i: nat, j: nat,
                          u': seq<Slot>, ps': seq<(K, V)>)
    requires i < |ou| == |ops| && DistinctKeys(ou, ops) && ou[i] == Occupied
    requires 2 * |OccupiedSet(ou)| <= |u|
    requires Reinserted(ou, ops, u, ps, size, hash, i)
    requires j == Probe(u, ps, ops[i].0, hash(ops[i].0)) < |u|
    requires u' == u[j := Occupied] && ps' == ps[j := (ops[i].0, ops[i].1)]
    ensures u[j] == Empty
    ensures Reinserted(ou, ops, u', ps', size + 1, hash, i + 1)
  {
    var key, value := ops[i].0, ops[i].1;
    RoomLeft(ou, i);
    PrefixMapFresh(ou, ops, i);
    InsertAt(u, ps, size, hash, key, value);
    assert u[j] != Tombstone;
    assert forall k :: 0 <= k < |u'| ==> u'[k] != Tombstone by {
      forall k | 0 <= k < |u'| ensures u'[k] != Tombstone {
        if k != j {
          assert u'[k] == u[k];
        }
      }
    }
  }

  // ---------------------------------------------------------------------
  // Iteration order

  /** The least Occupied index at or after `i`, or `|u|` (the end) if there is none. */
  function NextOccupied(u: seq<Slot>, i: nat): (r: nat)
    requires i <= |u|
    ensures i <= r <= |u|
    ensures r < |u| ==> u[r] == Occupied
    ensures forall k :: i <= k < r ==> u[k] != Occupied
    decreases |u| - i
  {
    if i == |u| || u[i] == Occupied then i else NextOccupied(u, i + 1)
  }

  /** The indices an iteration visits from position `i` on, moving with `++`. */
  ghost function Visits(u: seq<Slot>, i: nat): seq<nat>
    requires i <= |u|
    decreases |u| - i
  {
    var p := NextOccupied(u, i);
    if p == |u| then [] else [p] + Visits(u, p + 1)
  }

  /** Iterating from position `i` visits the Occupied slots at or after `i`,
      each exactly once, in increasing order. */
  lemma {:induction false} VisitsOccupied(u: seq<Slot>, i: nat)
    requires i <= |u|
    ensures forall a, b :: 0 <= a < b < |Visits(u, i)| ==> Visits(u, i)[a] < Visits(u, i)[b]
    ensures forall k :: k in Visits(u, i) <==> i <= k < |u| && u[k] == Occupied
    decreases |u| - i
  {
    var p := NextOccupied(u, i);
    if p < |u| {
      VisitsOccupied(u, p + 1);
      var rest := Visits(u, p + 1);
      var all := Visits(u, i);
      assert all == [p] + rest;
      forall a, b | 0 <= a < b < |all| ensures all[a] < all[b] {
        if a == 0 {
          assert all[b] == rest[b - 1] && rest[b - 1] in rest;
        } else {
          assert all[a] == rest[a - 1] && all[b] == rest[b - 1];
        }
      }
      forall k ensures k in all <==> i <= k < |u| && u[k] == Occupied {
        assert k in all <==> k == p || k in rest;
      }
    }
  }

  // ---------------------------------------------------------------------
  // Copy-assignment

  /** Midway through copy-assignment: the slots below `i` hold the Occupied
      entries of the other table at the same index, and every other slot is Empty. */
  ghost predicate CopiedBelow<K, V>(ou: seq<Slot>, ops: seq<(K, V)>, u: seq<Slot>, ps: seq<(K, V)>, size: nat, i: nat)
    requires i <= |ou| == |ops| == |u| == |ps|
  {
    && (forall j :: 0 <= j < |u| ==> u[j] == if j < i && ou[j] == Occupied then Occupied else Empty)
    && (forall j :: 0 <= j < i && ou[j] == Occupied ==> ps[j] == ops[j])
    && size == CountOccupied(ou, i)
  }

  /** One step of copy-assignment: slot `i` is copied when it is Occupied. */
  lemma CopyStep<K, V>(ou: seq<Slot>, ops: seq<(K, V)>, u: seq<Slot>, ps: seq<(K, V)>, size: nat, i: nat)
    requires i < |ou| == |ops| == |u| == |ps|
    requires CopiedBelow(ou, ops, u, ps, size, i)
    ensures ou[i] == Occupied ==> CopiedBelow(ou, ops, u[i := Occupied], ps[i := (ops[i].0, ops[i].1)], size + 1, i + 1)
    ensures ou[i] != Occupied ==> CopiedBelow(ou, ops, u, ps, size, i + 1)
  {
  }

  /** Once every slot is copied, the tags are those of the other table with
      its Tombstones made Empty, and the map is the other table's. */
  lemma CopiedAll<K, V>(ou: seq<Slot>, ops: seq<(K, V)>, u: seq<Slot>, ps: seq<(K, V)>, size: nat)
    requires |ou| == |ops| == |u| == |ps| && DistinctKeys(ou, ops)
    requires CopiedBelow(ou, ops, u, ps, size, |ou|)
    ensures u == DropTombstones(ou)
    ensures forall j :: 0 <= j < |u| && u[j] == Occupied ==> ps[j] == ops[j]
    ensures size == |OccupiedSet(ou)|
    ensures MapOf(u, ps) == MapOf(ou, ops)
  {
    assert u == DropTombstones(ou);
    CountOccupiedAll(ou);
    SameOccupiedPrefix(ou, ops, u, ps, |u|);
  }

  /** Without Tombstones in the other table, the copy keeps its invariant. */
  lemma CopyKeepsInv<K, V>(ou: seq<Slot>, ops: seq<(K, V)>, u: seq<Slot>, ps: seq<(K, V)>, size: nat, hash: K -> Word)
    requires TableInv(ou, ops, size, hash) && NoTombstones(ou)
    requires |u| == |ps| == |ou| && u == DropTombstones(ou)
    requires forall j :: 0 <= j < |u| && u[j] == Occupied ==> ps[j] == ops[j]
    ensures TableInv(u, ps, size, hash)
  {
    assert u == ou;
    SameOccupiedShape(ou, ops, u, ps);
    SameOccupiedReachable(ou, ops, ps, hash);
  }

  /** No slot is a Tombstone. */
  ghost predicate NoTombstones(u: seq<Slot>) {
    forall i :: 0 <= i < |u| ==> u[i] != Tombstone
  }

  /** The tags after copy-assignment: Occupied slots kept, every other slot Empty. */
  function DropTombstones(u: seq<Slot>): (r: seq<Slot>)
    ensures |r| == |u|
    ensures forall i :: 0 <= i < |u| ==> r[i] == if u[i] == Occupied then Occupied else Empty
  {
    seq(|u|, i requires 0 <= i < |u| => if u[i] == Occupied then Occupied else Empty)
  }

  /** A walk that meets no Empty slot and no Occupied slot with `key` never
      stops, so `find_position` as written never returns. */
  lemma NoEmptySlotNeverStops<K, V>(u: seq<Slot>, ps: seq<(K, V)>, key: K, h: Word)
    requires 0 < |u| == |ps|
    requires forall i :: 0 <= i < |u| ==> u[i] != Empty
    requires !HasKey(u, ps, key)
    ensures SourceProbe(u, ps, key, h).None?
  {
  }
}
